=== FILE: README.md ===
# Clinic booking and order admin: the logic inside the forms

The clinic site is made of React forms and tables. This project models the small pieces of
pure logic inside four of them and proves what those pieces promise:

- the appointment form (`pages/book.jsx`): the slot list is ordered by start time. Each
  "h:mm AM/PM" string is read with `split` and `Number`, the period is compared without regard
  to letter case, the time becomes minutes after midnight, and the list is sorted by that
  value. The same form validates the email and age fields and falls back to the first
  fetched service type and location when none is chosen;
- the address dialog (`components/Address.jsx`) has a fixed list of countries and matches
  them without regard to case, falling back to the first. Opening an address prefills the
  form, and closing the dialog resets it. After the server answers, the edited address is
  replaced in the parent's list, or the created one is appended;
- the add-location form (`pages/admin/location/create.jsx`) has a main picture, which can
  be chosen or cleared, and a list of other pictures, any of which can be removed. Three
  of its text fields are required;
- the admin order table (`pages/admin/orders/index.jsx`): the page is read from the query
  string and the status filter is mapped to the request. The table numbers its rows, shows
  a "Showing X to Y of N" line and a button for every other page, and labels each status
  by splitting the status name at its capital letters.

Everything is pure: a React state update becomes a function from the old value to the new
one. A server reply becomes a parameter (`AddressBook.Reply`). An exception thrown in the
code becomes a `Failure` or `None` result.

Modules, one per concern:

- `Wrappers` (wrappers.dfy): `Option` and `Result`.
- `JsText` (jstext.dfy): the JavaScript string behaviour the components rely on:
  - white space as `\s` and `trim` see it;
  - `split` on one character, `trim` and `Number()`;
  - `String(n)` for integers;
  - ASCII case folding.
- `Slots` (slots.dfy): the slot comparator and sort.
- `Validation` (validation.dfy): the required rule, the email pattern, the age rule and
  the default ids. Address.jsx:182-188 uses the same email rule as book.jsx:370-375, so
  `Validation.EmailError` models both.
- `AddressBook` (addressbook.dfy): the address dialog.
- `LocationForm` (locationform.dfy): the picture fields and required fields.
- `OrderTable` (ordertable.dfy): paging, the range line and status labels.

## Model

| member | source | states |
|---|---|---|
| JsText.Lower | pages/book.jsx:601-609 | `toLowerCase` on ASCII: the length is kept, each ASCII capital becomes its small letter, and every other character is kept |
| JsText.Upper | components/Address.jsx:29 | `toLocaleUpperCase` on ASCII: the length is kept, each ASCII small letter becomes its capital, and every other character is kept |
| JsText.Split | pages/book.jsx:594-598 | `split(' ')` and `split(':')` always yield at least one piece, and no piece contains the separator |
| JsText.JoinSplit | pages/book.jsx:594 | splitting loses nothing: joining the pieces with the separator gives back the text |
| JsText.Trim | pages/admin/orders/index.jsx:109 | `trim` returns the text between the leading and trailing white space: a slice of the input whose first and last characters are not white space, with only white space cut off on either side |
| JsText.TrimNoWhitespace | pages/admin/orders/index.jsx:161 | text without white space is its own trim |
| JsText.ToNumber | pages/book.jsx:595 | `Number()` of empty or all-blank text is 0, and a numeric result ends in a digit |
| JsText.TrimPadding | pages/admin/orders/index.jsx:109 | white space around text that neither starts nor ends with white space is exactly what `trim` removes |
| JsText.NumberOfPaddedDigits | pages/book.jsx:595 | a run of digits, unsigned or after one '+' or '-', and with any white space around it, reads as its value with that sign; leading zeros do not matter |
| JsText.NumberOfPaddedSigned | pages/book.jsx:595 | a run of digits after one '+' or '-', with any white space around it, reads as its value with that sign |
| JsText.NonDigitIsNaN | pages/book.jsx:595 | text whose trimmed form holds a character other than a digit reads as NaN, unless that character is a single leading sign |
| JsText.LoneSignIsNaN | pages/book.jsx:595 | a '+' or '-' with no digits after it reads as NaN |
| JsText.IntToDecimal | pages/admin/orders/index.jsx:182 | `String(n)` of a non-negative integer is a run of digits, and of a negative one a '-' followed by digits; `NumberOfDecimal` reads it back |
| JsText.NumberOfDecimal | pages/admin/orders/index.jsx:74 | `Number(String(n)) == n` for every integer, so a page number written into a link reads back unchanged |
| JsText.NumberOfDigits | pages/book.jsx:595 | a digit string, leading zeros included ("05"), reads as its decimal value |
| JsText.DigitsRoundTrip | pages/admin/orders/index.jsx:182 | the decimal rendering of a natural number reads back as that number |
| Slots.PeriodOf | pages/book.jsx:601-609 | the period word counts as PM or AM when it lower-cases to "pm" or "am", and as neither otherwise (`PeriodIgnoresCase`) |
| Slots.Hour24 | pages/book.jsx:601-611 | the 24-hour reading of a start time; its four cases are stated by `Hour24Cases` and its meaning by `Hour24Meaning` |
| Slots.MinutesOfDay | pages/book.jsx:613 | minutes after midnight, hour * 60 + minute; a bijection from well-formed times onto [0, 1440) (`MinutesInDay`, `MinutesInjective`, `MinutesRoundTrip`) |
| Slots.Hour24Cases | pages/book.jsx:601-611 | "12 AM" becomes hour 0, "12 PM" stays 12, other PM hours gain 12, other AM hours are kept |
| Slots.Hour24Meaning | pages/book.jsx:601-611 | for a well-formed time the 24-hour value lies in [0, 24), agrees with the written hour modulo 12, and is 12 or more exactly when the period is PM |
| Slots.PeriodIgnoresCase | pages/book.jsx:601-609 | two period words that lower-case alike are read alike |
| Slots.PmSpellings | pages/book.jsx:601-609 | "PM", "pm" and "Pm" give the same minutes of the day |
| Slots.MinutesInDay | pages/book.jsx:594-613 | a well-formed time (hour 1-12, minute 0-59, period am/pm) lies in [0, 1440) minutes |
| Slots.MinutesInjective | pages/book.jsx:601-613 | two well-formed times have equal minutes exactly when hour, minute and period agree |
| Slots.Compare | pages/book.jsx:613 | the comparator is negative, zero or positive as the first time is earlier, equal or later; on well-formed times it is zero only for the same clock time |
| Slots.CompareAntisymmetric | pages/book.jsx:613 | cmp(a, b) = -cmp(b, a) and cmp(a, a) = 0 |
| Slots.ClockOf | pages/book.jsx:601-613 | every minute of the day has a well-formed 12-hour time |
| Slots.ClockOfRoundTrip | pages/book.jsx:601-613 | converting that time back to minutes gives the same minute |
| Slots.MinutesRoundTrip | pages/book.jsx:601-613 | a well-formed time converted to minutes and back is the same clock time, so the conversion is a bijection onto [0, 1440) |
| Slots.ParseStartTime | pages/book.jsx:594-598 | a start time fails with "missing period" exactly when it has no space; the period read never contains a space |
| Slots.ParseRender | pages/book.jsx:594-598 | every start time in the server's "9:05 AM" form reads back as the hour, minute and period it shows |
| Slots.StartTime | pages/book.jsx:594-598 | a slot whose start time can be read is compared by exactly the time `ParseStartTime` reads |
| Slots.CompareSlots | pages/book.jsx:593-614 | the comparator the sort calls on two readable slots is `Compare` on their two start times, so it inherits its sign, antisymmetry and "zero only for the same clock time" |
| Slots.Insert | pages/book.jsx:592-614 | inserting into a sorted list keeps it sorted and adds exactly the one element |
| Slots.InsertionSort | pages/book.jsx:592-614 | the sorted list is ordered by key and is a permutation of the input |
| Slots.InsertionSortStable | pages/book.jsx:592-614 | elements with equal keys keep their input order, as the standard requires of `Array.prototype.sort` |
| Slots.SortSlots | pages/book.jsx:592-614 | fewer than two slots come back unchanged. Otherwise the result is ordered by the comparator and is a permutation of the input, and slots with equal start times keep the server's order. Sorting fails exactly when there are at least two slots and one start time has no space (the comparator throws) or has no numeric hour or minute |
| Slots.SortedByStart | pages/book.jsx:613 | ordered by minutes of the day means the comparator never puts a slot after a later one |
| Validation.Required | pages/admin/location/create.jsx:41-43 | the `required` rule reports the field's message exactly when the input is empty |
| Validation.EmailAcceptedIffPattern | pages/book.jsx:373 | `/^[^\s@]+@[^\s@]+\.[^\s@]+$/` accepts exactly the texts with no white space, exactly one '@' with text before it, and a '.' after the '@' that is neither the domain's first nor its last character |
| Validation.EmailError | pages/book.jsx:370-375 | an empty email gives "Email is required", a non-matching one "Please enter correct email id", and no message is shown exactly when the pattern matches |
| Validation.AgeError | pages/book.jsx:397-400 | an empty age gives "Age is required"; otherwise the age is accepted exactly when it reads as a number greater than 0 |
| Validation.AgeOfWholeNumber | pages/book.jsx:399 | an age typed as a whole number is accepted exactly when it is positive |
| Validation.ResolveId | pages/book.jsx:180-181 | a chosen id is sent as is; an unset one falls back to the first fetched id; with neither there is no id |
| Validation.BookingIds | pages/book.jsx:172-182 | the request gets both ids exactly when each is chosen or has a fetched fallback. A missing service type is reported before a missing location |
| AddressBook.FindCountry | components/Address.jsx:28-30 | `find` returns the first listed country equal to the name up to ASCII letter case, and nothing only when no country matches |
| AddressBook.ResolveCountry | components/Address.jsx:28-31 | the resolved country is always one of ['Iran', 'Iraq']: the one matching the name up to case, or 'Iran' when none does |
| AddressBook.ResolveCountryIgnoresCase | components/Address.jsx:29 | names that upper-case alike resolve alike |
| AddressBook.ResolveCountryExamples | components/Address.jsx:15-31 | "IRAQ" and "iraq" resolve to "Iraq"; "Oman" falls back to "Iran" |
| AddressBook.ResolveCountryIdempotent | components/Address.jsx:31-37 | a resolved country resolves to itself |
| AddressBook.Prefill | components/Address.jsx:33-42 | each missing fullname, email, phone, state, city or postal code is shown as ''. A present one is shown as stored. The street is passed through unchanged, even when missing |
| AddressBook.OnOpen | components/Address.jsx:26-44 | the form is prefilled only when the dialog is shown for an address with a non-zero id. It then gets the resolved country. A missing country makes the effect throw. Nothing else changes |
| AddressBook.Close | components/Address.jsx:46-60 | `close` hides the dialog and drops the selected address. It blanks every text field, sets the street to '' and resets the country to the first entry |
| AddressBook.CloseForgets | components/Address.jsx:46-60 | what `close` leaves does not depend on the dialog's previous contents. Closing twice is the same as closing once, and the open effect then does nothing |
| AddressBook.ReplaceById | components/Address.jsx:84-88 | every list entry with the edited id becomes the server record. The length and all other entries are unchanged |
| AddressBook.ReplaceByIdIdempotent | components/Address.jsx:84-88 | replacing by the same edited id with the same saved record a second time changes nothing more, even when the record carries another id than the one edited |
| AddressBook.ReplaceByIdAbsent | components/Address.jsx:84-88 | an id the list does not hold leaves the list unchanged |
| AddressBook.Submit | components/Address.jsx:62-119 | a successful edit replaces every entry with the edited id. A successful create appends the record, leaving the old list as an unchanged prefix. A rejection keeps the list. Either way, loading ends and the dialog is closed |
| AddressBook.SubmitListsRecord | components/Address.jsx:84-106 | after a save the record is listed, unless an edit named an id the list does not hold. Entries with other ids keep their places |
| LocationForm.DropIndex | pages/admin/location/create.jsx:199-201 | the `filter((_, index) => index !== idx)` itself; what it removes is stated by `DropIndexSplice` |
| LocationForm.DropIndexSplice | pages/admin/location/create.jsx:199-201 | the index filter drops exactly the element at `idx`, or nothing when no element has that index |
| LocationForm.RemoveAt | pages/admin/location/create.jsx:198-202 | removing an index 0 <= idx < n leaves n-1 pictures: those before idx stay in place and those after shift down by one. An out-of-range index changes nothing |
| LocationForm.RemoveAtRestore | pages/admin/location/create.jsx:199-201 | putting the removed picture back at its index restores the list |
| LocationForm.Apply | pages/admin/location/create.jsx:119-202 | choosing a main picture keeps only the first file chosen, and a cancelled chooser stores nothing. Clearing stores nothing. Choosing other pictures replaces the list. Removing one takes out exactly that picture as a multiset and leaves the main picture alone |
| LocationForm.ClearAfterChoose | pages/admin/location/create.jsx:127-139 | after clearing, no main picture remains, whatever was chosen before |
| LocationForm.CheckRequired | pages/admin/location/create.jsx:39-91 | name, telephone and email each report their own message exactly when empty |
| LocationForm.SubmitsIffFilled | pages/admin/location/create.jsx:39-91 | the form has no errors exactly when all three fields are filled |
| OrderTable.PageFromQuery | pages/admin/orders/index.jsx:74 | a missing, empty, zero or non-numeric `page` becomes 1; any other number is used as it is; the page is never 0 |
| OrderTable.StatusParam | pages/admin/orders/index.jsx:53 | 'all' sends no status and any other filter is sent verbatim |
| OrderTable.StatusParamDistinguishesChoices | pages/admin/orders/index.jsx:100-111 | different filters, and so different choices of the filter select, send different requests |
| OrderTable.PageCount | pages/admin/orders/index.jsx:186 | `Math.ceil(total / 10)` is the fewest pages of 10 rows that hold `total` orders |
| OrderTable.PagePool | pages/admin/orders/index.jsx:186 | the pool is 1, 2, ..., count |
| OrderTable.Without | pages/admin/orders/index.jsx:187 | the filter keeps exactly the page numbers other than the current one |
| OrderTable.WithoutKeepsOrder | pages/admin/orders/index.jsx:187 | filtering keeps the pool strictly ascending |
| OrderTable.WithoutLength | pages/admin/orders/index.jsx:187 | filtering removes one button when the current page is in the pool and none otherwise |
| OrderTable.PageButtons | pages/admin/orders/index.jsx:186-188 | the buttons are exactly the pages 1..ceil(total/10) other than the current one, ascending, each once |
| OrderTable.ButtonLoadsItsPage | pages/admin/orders/index.jsx:191 | each button's link loads the page the button shows |
| OrderTable.RowNumber | pages/admin/orders/index.jsx:150 | the row at index 0-9 on page p is numbered within the p-th block of ten, (p-1)*10 + 1 to p*10 |
| OrderTable.RangeMatchesRows | pages/admin/orders/index.jsx:150-182 | the range starts at the first row's number (page*10 - 9) and ends at the last row's number. It spans as many numbers as there are rows |
| OrderTable.RangeWithinTotal | pages/admin/orders/index.jsx:180-182 | for a page in range that holds what is left of the orders, the range lies within 1..total, and on the last page it ends at total |
| OrderTable.RangeBeyondLastPage | pages/admin/orders/index.jsx:180-182 | a page past the last one shows a range that ends before it starts and starts past the total |
| OrderTable.ShownRange | pages/admin/orders/index.jsx:180-182 | the line shows no range exactly when there are no orders |
| OrderTable.RangeText | pages/admin/orders/index.jsx:180-182 | the text is '0' exactly when no range is shown; a range never reads '0' |
| OrderTable.RangeTextNoOrders | pages/admin/orders/index.jsx:180-182 | with no orders the line reads '0' on every page and for every row count, and it reads '0' only when there are no orders |
| OrderTable.RangeTextReadsBack | pages/admin/orders/index.jsx:182 | a shown range reads word by word as its first row number, "to", and its last row number, and both numbers read back as the rows they name |
| OrderTable.RangeTextExamples | pages/admin/orders/index.jsx:182 | page 3 of 25 orders with 5 rows reads "21 to 25" |
| OrderTable.SpaceBeforeCapitals | pages/admin/orders/index.jsx:109 | `replace(/([A-Z])/g, ' $1')` never shortens the text |
| OrderTable.SpacesMarkCapitals | pages/admin/orders/index.jsx:109 | in the spaced text of a status without white space, every space stands right before a capital and every capital right after a space |
| OrderTable.Label | pages/admin/orders/index.jsx:109 | the label neither starts nor ends with white space |
| OrderTable.LabelDropsLeadingSpace | pages/admin/orders/index.jsx:161 | the label of a status that starts with a capital is its spaced text without the first space |
| OrderTable.LabelKeepsSpacing | pages/admin/orders/index.jsx:161 | the label of a status that does not start with a capital is its spaced text unchanged |
| OrderTable.LabelUndone | pages/admin/orders/index.jsx:109 | deleting the spaces of a status label gives back the status, for every status written without white space |
| OrderTable.StatusOptionsUndone | pages/admin/orders/index.jsx:11-24 | deleting the spaces of the label recovers each of the twelve status options |
| OrderTable.RemoveSpacesOfSpaced | pages/admin/orders/index.jsx:109 | the spaces the replace inserts are the only thing it adds |
| OrderTable.RemoveSpacesTrim | pages/admin/orders/index.jsx:161 | trimming text whose only white space is the plain space deletes nothing but spaces |
| OrderTable.LabelOnDelivery | pages/admin/orders/index.jsx:161 | "OnDelivery" is shown as "On Delivery" |
| OrderTable.LabelPlaced | pages/admin/orders/index.jsx:161 | "Placed" is shown as "Placed" |

## Left out

- HTTP requests and the shapes of their responses are not modelled. The server's answer is a parameter (`AddressBook.Reply`) or a list the caller supplies.
- Toasts, `console.log`, router navigation, `localStorage`/`sessionStorage` (token, saved filter and sort), React hooks and re-render timing are not modelled; they are effects, not logic.
- `toLocalISO` (pages/book.jsx:26-52) is not modelled because it depends on the host time zone and the current clock. `format` (pages/admin/orders/index.jsx:26-35) is not modelled because it uses floating point and `toLocaleString`.
- Phone validation is not modelled: `isValidPhoneNumber` belongs to a library whose rules are not part of this model.
- The date picker, file objects, `URL.createObjectURL`, animation and all markup are not modelled. A picture is an opaque value (`LocationForm.Picture`).
- The add-location form has no `noValidate`, so the browser's own check of its `type='email'` field runs before submission. That check is not modelled.
- The remaining `required` fields of the booking and address forms follow `Validation.Required` and are not listed one by one. The sort direction select of the order table is passed to the server untouched.
- JsText.IntToDecimal: JavaScript numbers are double-precision floats, but the model uses exact, unbounded integers. `Number()` rounds integers above 2^53 (a 20-digit `?page=` reads as a nearby multiple of a power of two), and `String(n)` switches to exponent form ("1e+21") once |n| >= 10^21. The page and the range text for such values differ from the model. In JavaScript `Number(String(n)) === n` holds for every finite double, including 2^60 and 1e21; what the model cannot represent is the integers no double holds exactly, which JavaScript rounds before rendering.
- JsText.ToNumber: only optionally signed decimal integers, with surrounding white space, are read as numbers. Fractions, exponents, hexadecimal, binary ("0b101"), octal ("0o17") and "Infinity" are read as NaN, although JavaScript reads them as numbers.
- Validation.AgeError: because of `JsText.ToNumber`, a fractional age such as "0.5" is rejected here but accepted by the form.
- Validation.AgeError: the model takes the raw text typed into the age box, not the value the browser hands over. The box is `type='number'` (pages/book.jsx:394-396), so the browser reports "" for any text that is not a valid floating-point number. Typed "+5" or " 5" then gives "Age is required" in the form but is accepted here, and "abc" gives "Age is required" in the form but "Enter proper age" here.
- OrderTable.PageFromQuery: because of `JsText.ToNumber`, a fractional query value such as "2.5" gives page 1 here, where the page would be 2.5.
- Slots.ParseStartTime: because of `JsText.ToNumber`, a fractional or exponent hour or minute is reported as not a number.
- Slots.SortSlots: when a comparison yields NaN, JavaScript treats it as "equal" (+0). With some slots readable and others not, the comparator is inconsistent and the order depends on the engine. When every start time has a space but none has a numeric hour and minute, every comparison is +0, and the stable sort keeps the server's order. In both cases the model reports a failure instead of an order.
- JsText.Lower: only the ASCII capitals A-Z are folded. Other letters ('É' to 'é') are kept, and length-changing mappings ('İ' to "i̇") are not modelled.
- JsText.Upper: only the ASCII small letters a-z are folded. Other letters ('é' to 'É', 'ı' to 'I') are kept, and length-changing mappings ('ß' to "SS") are not modelled.
- AddressBook.FindCountry: because of `JsText.Upper`, names that match a country only through non-ASCII case folding are not found. For example, "ıraq" finds nothing here, while the form finds "Iraq"; 'ß' to "SS" and other length-changing mappings are not modelled.
- AddressBook.ResolveCountry: `toLocaleUpperCase` is locale-sensitive. Only ASCII letters are folded here.
- Slots.PeriodOf: `toLowerCase` is folded on ASCII letters only. No other character lower-cases to 'a', 'm' or 'p', so the comparison with "am" and "pm" comes out the same.
- AddressBook.OnOpen: an address id is modelled as an integer whose truthiness is "not 0". Ids of other JavaScript types are not modelled.

=== FILE: addressbook.dfy ===
/** The address dialog of components/Address.jsx: the country select with its fixed
    list, the prefill when an existing address is opened, the reset on close, and the
    update of the parent's address list after the server answers a submit. */
module AddressBook {
  import opened Wrappers
  import opened JsText

  /** The countries the select offers; the first is the default. */
  const Countries: seq<string> := ["Iran", "Iraq"]

  /** An address as the server stores it; any text field may be missing. */
  datatype Address = Address(
    id: int,
    fullname: Option<string>,
    email: Option<string>,
    phone: Option<string>,
    country: Option<string>,
    state: Option<string>,
    city: Option<string>,
    postalCode: Option<string>,
    street: Option<string>)

  /** The values bound to the dialog's inputs. `street` is copied from the record
      without a default, so it may be missing. */
  datatype FormValues = FormValues(
    fullname: string,
    email: string,
    phone: string,
    country: string,
    state: string,
    city: string,
    postalCode: string,
    street: Option<string>)

  /** The dialog: whether it is shown and which address it edits (both owned by the
      parent), the selected country, the form values and the submit flag. */
  datatype Dialog = Dialog(
    open: bool,
    selected: Option<Address>,
    country: string,
    form: FormValues,
    loading: bool)

  /** The server's answer to a create or update request. */
  datatype Reply = Saved(record: Address) | Rejected

  /** Opening a stored address whose country is missing: `toLocaleUpperCase` of
      `undefined` throws inside the effect. */
  datatype OpenError = MissingCountry

  // ---------------------------------------------------------------------------
  // Country

  /** `list[k]` is the first entry equal to `name` up to letter case. */
  predicate FirstMatchAt(list: seq<string>, name: string, k: int) {
    && 0 <= k < |list|
    && Upper(list[k]) == Upper(name)
    && forall m :: 0 <= m < k ==> Upper(list[m]) != Upper(name)
  }

  /** `list.find(c => c.toLocaleUpperCase() === name.toLocaleUpperCase())`. */
  function FindCountry(name: string, list: seq<string>): (r: Option<string>)
    ensures r.None? <==> forall k :: 0 <= k < |list| ==> Upper(list[k]) != Upper(name)
    ensures r.Some? ==> exists k :: FirstMatchAt(list, name, k) && list[k] == r.value
  {
    if |list| == 0 then None
    else if Upper(list[0]) == Upper(name) then
      assert FirstMatchAt(list, name, 0);
      Some(list[0])
    else
      var r := FindCountry(name, list[1..]);
      assert r.Some? ==> exists k :: FirstMatchAt(list, name, k) && list[k] == r.value by {
        if r.Some? {
          var k :| FirstMatchAt(list[1..], name, k) && list[1..][k] == r.value;
          forall m | 0 <= m < k + 1 ensures Upper(list[m]) != Upper(name) {
            if m > 0 { assert list[m] == list[1..][m - 1]; }
          }
          assert FirstMatchAt(list, name, k + 1);
        }
      }
      r
  }

  /** `count || countries[0]`: the listed country spelled like `name` up to letter case,
      or the first country. */
  function ResolveCountry(name: string): (c: string)
    ensures c in Countries
    ensures Upper(c) == Upper(name) || c == Countries[0]
    ensures (exists k :: 0 <= k < |Countries| && Upper(Countries[k]) == Upper(name)) ==> Upper(c) == Upper(name)
    ensures (forall k :: 0 <= k < |Countries| ==> Upper(Countries[k]) != Upper(name)) ==> c == Countries[0]
  {
    FindCountry(name, Countries).GetOr(Countries[0])
  }

  /** Letter case does not matter to the lookup. */
  lemma ResolveCountryIgnoresCase(a: string, b: string)
    requires Upper(a) == Upper(b)
    ensures ResolveCountry(a) == ResolveCountry(b)
  {
  }

  lemma ResolveCountryExamples()
    ensures ResolveCountry("IRAQ") == "Iraq"
    ensures ResolveCountry("iraq") == "Iraq"
    ensures ResolveCountry("Oman") == "Iran"
  {
    assert Upper("IRAQ") == "IRAQ" == Upper("Iraq") == Upper("iraq");
    assert Upper("Iran") == "IRAN" != "IRAQ";
    assert Upper("Oman") == "OMAN";
  }

  /** A resolved country resolves to itself. */
  lemma ResolveCountryIdempotent(name: string)
    ensures ResolveCountry(ResolveCountry(name)) == ResolveCountry(name)
  {
    assert Upper("Iran") == "IRAN" && Upper("Iraq") == "IRAQ";
  }

  // ---------------------------------------------------------------------------
  // Opening, closing and submitting the dialog

  /** The values `close` resets the inputs to. */
  const BlankForm: FormValues := FormValues("", "", "", "Iran", "", "", "", Some(""))

  /** The values shown for a stored address: missing text becomes '', except the
      street, which is copied as it is. */
  function Prefill(a: Address, country: string): (f: FormValues)
    ensures f.country == country && f.street == a.street
    ensures a.fullname.None? ==> f.fullname == ""
    ensures a.fullname.Some? ==> f.fullname == a.fullname.value
    ensures a.email.None? ==> f.email == ""
    ensures a.email.Some? ==> f.email == a.email.value
    ensures a.phone.None? ==> f.phone == ""
    ensures a.phone.Some? ==> f.phone == a.phone.value
    ensures a.state.None? ==> f.state == ""
    ensures a.state.Some? ==> f.state == a.state.value
    ensures a.city.None? ==> f.city == ""
    ensures a.city.Some? ==> f.city == a.city.value
    ensures a.postalCode.None? ==> f.postalCode == ""
    ensures a.postalCode.Some? ==> f.postalCode == a.postalCode.value
  {
    FormValues(
      a.fullname.GetOr(""), a.email.GetOr(""), a.phone.GetOr(""), country,
      a.state.GetOr(""), a.city.GetOr(""), a.postalCode.GetOr(""), a.street)
  }

  /** The effect run when `open` changes: a shown dialog for an address with a non-zero
      id takes that address's values; otherwise nothing changes. */
  function OnOpen(d: Dialog): (r: Result<Dialog, OpenError>)
    ensures !d.open || d.selected.None? || d.selected.value.id == 0 ==> r == Success(d)
    ensures r.Failure? <==>
      (d.open && d.selected.Some? && d.selected.value.id != 0 && d.selected.value.country.None?)
    ensures r.Success? && d.open && d.selected.Some? && d.selected.value.id != 0 ==>
      r.value.country in Countries && r.value.form.country == r.value.country
      && r.value.form == Prefill(d.selected.value, r.value.country)
      && (Upper(r.value.country) == Upper(d.selected.value.country.value)
        || r.value.country == Countries[0])
    ensures r.Success? ==>
      (r.value.open == d.open && r.value.selected == d.selected && r.value.loading == d.loading)
  {
    if d.open && d.selected.Some? && d.selected.value.id != 0 then
      var a := d.selected.value;
      match a.country
      case None => Failure(MissingCountry)
      case Some(name) =>
        var country := ResolveCountry(name);
        Success(d.(country := country, form := Prefill(a, country)))
    else Success(d)
  }

  /** `close`: blank inputs, the first country, hidden and with no address selected. */
  function Close(d: Dialog): (r: Dialog)
    ensures !r.open && r.selected.None? && r.loading == d.loading
    ensures r.country == Countries[0] && r.form.country == Countries[0]
    ensures r.form.fullname == r.form.email == r.form.phone == r.form.state == ""
    ensures r.form.city == r.form.postalCode == "" && r.form.street == Some("")
  {
    Dialog(false, None, Countries[0], BlankForm, d.loading)
  }

  /** What `close` leaves behind does not depend on what the dialog held, so closing
      twice is closing once, and the open effect then does nothing. */
  lemma CloseForgets(d: Dialog, e: Dialog)
    requires d.loading == e.loading
    ensures Close(d) == Close(e)
    ensures Close(Close(d)) == Close(d)
    ensures OnOpen(Close(d)) == Success(Close(d))
  {
  }

  /** `prev.map(el => el.id === id ? record : el)`. */
  function ReplaceById(list: seq<Address>, id: int, record: Address): (r: seq<Address>)
    ensures |r| == |list|
    ensures forall k :: 0 <= k < |list| && list[k].id == id ==> r[k] == record
    ensures forall k :: 0 <= k < |list| && list[k].id != id ==> r[k] == list[k]
  {
    if |list| == 0 then []
    else [if list[0].id == id then record else list[0]] + ReplaceById(list[1..], id, record)
  }

  /** Saving the same record under the same edited id again changes nothing more,
      even when the server's record carries another id. */
  lemma ReplaceByIdIdempotent(list: seq<Address>, id: int, record: Address)
    ensures ReplaceById(ReplaceById(list, id, record), id, record) == ReplaceById(list, id, record)
  {
  }

  /** An id that is not listed leaves the list as it was. */
  lemma ReplaceByIdAbsent(list: seq<Address>, id: int, record: Address)
    requires forall k :: 0 <= k < |list| ==> list[k].id != id
    ensures ReplaceById(list, id, record) == list
  {
  }

  /** `onSubmit` once the server has answered: an edit replaces every listed address
      with the edited id by the saved record, a create appends it, a rejection leaves
      the list; in every case loading ends and the dialog is closed. */
  function Submit(d: Dialog, list: seq<Address>, reply: Reply): (r: (Dialog, seq<Address>))
    ensures !r.0.loading && r.0 == Close(d).(loading := false)
    ensures reply.Rejected? ==> r.1 == list
    ensures reply.Saved? && d.selected.Some? ==>
      |r.1| == |list|
      && forall k :: 0 <= k < |list| ==>
        r.1[k] == (if list[k].id == d.selected.value.id then reply.record else list[k])
    ensures reply.Saved? && d.selected.None? ==>
      |r.1| == |list| + 1 && r.1[..|list|] == list && r.1[|list|] == reply.record
  {
    var list' := match reply
      case Rejected => list
      case Saved(record) =>
        if d.selected.Some? then ReplaceById(list, d.selected.value.id, record)
        else list + [record];
    (Close(d.(loading := false)), list')
  }

  /** After a save the record is listed, unless an edit named an id the list does not
      hold; either way every address with another id keeps its place. */
  lemma SubmitListsRecord(d: Dialog, list: seq<Address>, record: Address)
    ensures d.selected.None? || (exists k :: 0 <= k < |list| && list[k].id == d.selected.value.id)
      ==> record in Submit(d, list, Saved(record)).1
    ensures d.selected.Some? && (forall k :: 0 <= k < |list| ==> list[k].id != d.selected.value.id)
      ==> Submit(d, list, Saved(record)).1 == list
    ensures forall k :: 0 <= k < |list| && (d.selected.None? || list[k].id != d.selected.value.id) ==>
      Submit(d, list, Saved(record)).1[k] == list[k]
  {
    var r := Submit(d, list, Saved(record)).1;
    if d.selected.Some? {
      if exists k :: 0 <= k < |list| && list[k].id == d.selected.value.id {
        var k :| 0 <= k < |list| && list[k].id == d.selected.value.id;
        assert r[k] == record;
      } else {
        ReplaceByIdAbsent(list, d.selected.value.id, record);
      }
    } else {
      assert r[|list|] == record;
    }
  }
}

=== FILE: jstext.dfy ===
/** The few JavaScript string primitives the components rely on: white space as the
    `\s` class and `String.prototype.trim` see it, `split` on one character, `Number()`
    on a string, the decimal rendering of an integer, and ASCII case folding. */
module JsText {
  import opened Wrappers

  /** WhiteSpace and LineTerminator of ECMA-262: the characters matched by the regular
      expression class `\s`, removed by `trim`, and skipped by `Number()`. */
  predicate IsWhitespace(c: char) {
    || c == '\t' || c == '\n' || c == '\U{000B}' || c == '\U{000C}' || c == '\r' || c == ' '
    || c == '\U{00A0}' || c == '\U{1680}' || ('\U{2000}' <= c <= '\U{200A}')
    || c == '\U{2028}' || c == '\U{2029}' || c == '\U{202F}' || c == '\U{205F}'
    || c == '\U{3000}' || c == '\U{FEFF}'
  }

  predicate NoWhitespace(s: string) {
    forall k :: 0 <= k < |s| ==> !IsWhitespace(s[k])
  }

  // ---------------------------------------------------------------------------
  // ASCII case folding

  predicate IsAsciiUpper(c: char) { 'A' <= c <= 'Z' }

  predicate IsAsciiLower(c: char) { 'a' <= c <= 'z' }

  function LowerChar(c: char): (r: char)
    ensures !IsAsciiUpper(r)
    ensures IsAsciiUpper(c) ==> r as int == c as int + 32
    ensures !IsAsciiUpper(c) ==> r == c
  {
    if IsAsciiUpper(c) then (c as int + 32) as char else c
  }

  function UpperChar(c: char): (r: char)
    ensures !IsAsciiLower(r)
    ensures IsAsciiLower(c) ==> r as int == c as int - 32
    ensures !IsAsciiLower(c) ==> r == c
  {
    if IsAsciiLower(c) then (c as int - 32) as char else c
  }

  /** `toLowerCase` restricted to the ASCII letters. */
  function Lower(s: string): (r: string)
    ensures |r| == |s|
    ensures forall k :: 0 <= k < |s| ==> r[k] == LowerChar(s[k])
  {
    seq(|s|, k requires 0 <= k < |s| => LowerChar(s[k]))
  }

  /** `toLocaleUpperCase` restricted to the ASCII letters. */
  function Upper(s: string): (r: string)
    ensures |r| == |s|
    ensures forall k :: 0 <= k < |s| ==> r[k] == UpperChar(s[k])
  {
    seq(|s|, k requires 0 <= k < |s| => UpperChar(s[k]))
  }

  // ---------------------------------------------------------------------------
  // String.prototype.split with a one-character separator

  /** `s.split(sep)`: the maximal runs between separators, in order; there is always
      at least one piece, and a leading, trailing or doubled separator yields "". */
  function Split(s: string, sep: char): (parts: seq<string>)
    ensures |parts| >= 1
    ensures forall k :: 0 <= k < |parts| ==> sep !in parts[k]
    decreases |s|
  {
    if |s| == 0 then [""]
    else
      var rest := Split(s[1..], sep);
      if s[0] == sep then [""] + rest
      else [[s[0]] + rest[0]] + rest[1..]
  }

  /** `parts.join(sep)`, the inverse of `Split`. */
  function Join(parts: seq<string>, sep: char): string
    requires |parts| >= 1
  {
    if |parts| == 1 then parts[0] else parts[0] + [sep] + Join(parts[1..], sep)
  }

  lemma {:induction false} JoinSplit(s: string, sep: char)
    ensures Join(Split(s, sep), sep) == s
    decreases |s|
  {
    if |s| > 0 {
      JoinSplit(s[1..], sep);
      var rest := Split(s[1..], sep);
      if s[0] == sep {
        assert Split(s, sep)[1..] == rest;
      } else {
        var parts := Split(s, sep);
        if |rest| == 1 {
          assert parts == [[s[0]] + rest[0]];
        } else {
          assert parts[1..] == rest[1..];
          assert Join(rest, sep) == rest[0] + [sep] + Join(rest[1..], sep);
        }
      }
    }
  }

  /** Splitting text that starts with a separator-free piece and a separator. */
  lemma {:induction false} SplitAfterPiece(a: string, sep: char, b: string)
    requires sep !in a
    ensures Split(a + [sep] + b, sep) == [a] + Split(b, sep)
    decreases |a|
  {
    if |a| == 0 {
      assert a + [sep] + b == [sep] + b;
      assert ([sep] + b)[1..] == b;
    } else {
      assert (a + [sep] + b)[1..] == a[1..] + [sep] + b;
      SplitAfterPiece(a[1..], sep, b);
      assert [a[0]] + a[1..] == a;
    }
  }

  lemma {:induction false} SplitWithoutSeparator(a: string, sep: char)
    requires sep !in a
    ensures Split(a, sep) == [a]
    decreases |a|
  {
    if |a| > 0 {
      SplitWithoutSeparator(a[1..], sep);
      assert [a[0]] + a[1..] == a;
    }
  }

  // ---------------------------------------------------------------------------
  // String.prototype.trim

  function TrimStart(s: string): (r: string)
    ensures |r| <= |s| && r == s[|s| - |r|..]
    ensures r == [] || !IsWhitespace(r[0])
    ensures forall k :: 0 <= k < |s| - |r| ==> IsWhitespace(s[k])
  {
    if |s| > 0 && IsWhitespace(s[0]) then TrimStart(s[1..]) else s
  }

  function TrimEnd(s: string): (r: string)
    ensures |r| <= |s| && r == s[..|r|]
    ensures r == [] || !IsWhitespace(r[|r| - 1])
    ensures forall k :: |r| <= k < |s| ==> IsWhitespace(s[k])
  {
    if |s| > 0 && IsWhitespace(s[|s| - 1]) then TrimEnd(s[..|s| - 1]) else s
  }

  /** How many characters of leading white space `trim` drops. */
  function LeadingWhitespace(s: string): (n: nat)
    ensures n <= |s|
    ensures forall k :: 0 <= k < n ==> IsWhitespace(s[k])
    ensures n == |s| || !IsWhitespace(s[n])
  {
    |s| - |TrimStart(s)|
  }

  /** `s.trim()`: the text between the leading and the trailing white space. */
  function Trim(s: string): (r: string)
    ensures r == [] || (!IsWhitespace(r[0]) && !IsWhitespace(r[|r| - 1]))
    ensures LeadingWhitespace(s) + |r| <= |s|
    ensures r == s[LeadingWhitespace(s)..LeadingWhitespace(s) + |r|]
    ensures forall k :: LeadingWhitespace(s) + |r| <= k < |s| ==> IsWhitespace(s[k])
  {
    var t := TrimStart(s);
    var r := TrimEnd(t);
    TrimWindow(s, t, r);
    r
  }

  /** A prefix `r` of a suffix `t` of `s` is the slice of `s` it came from, and what
      follows it in `s` is what follows it in `t`. */
  lemma TrimWindow(s: string, t: string, r: string)
    requires |t| <= |s| && t == s[|s| - |t|..]
    requires |r| <= |t| && r == t[..|r|]
    requires forall k :: |r| <= k < |t| ==> IsWhitespace(t[k])
    ensures r == s[|s| - |t|..|s| - |t| + |r|]
    ensures forall k :: |s| - |t| + |r| <= k < |s| ==> IsWhitespace(s[k])
  {
    var i := |s| - |t|;
    forall k | i + |r| <= k < |s| ensures IsWhitespace(s[k]) {
      assert s[k] == t[k - i];
    }
  }

  /** Text that neither starts nor ends with white space is its own trim. */
  lemma TrimUntouched(s: string)
    requires s == [] || (!IsWhitespace(s[0]) && !IsWhitespace(s[|s| - 1]))
    ensures Trim(s) == s
  {
  }

  lemma TrimNoWhitespace(s: string)
    requires NoWhitespace(s)
    ensures Trim(s) == s
  {
    TrimUntouched(s);
  }

  // ---------------------------------------------------------------------------
  // Decimal digits

  predicate IsDigit(c: char) { '0' <= c <= '9' }

  /** A non-empty run of decimal digits. */
  predicate IsDigits(d: string) {
    |d| > 0 && forall k :: 0 <= k < |d| ==> IsDigit(d[k])
  }

  function DigitValue(c: char): (v: nat)
    requires IsDigit(c)
    ensures v < 10
  {
    c as int - '0' as int
  }

  function DigitChar(v: nat): (c: char)
    requires v < 10
    ensures IsDigit(c) && DigitValue(c) == v
  {
    ('0' as int + v) as char
  }

  /** The value of a digit string, most significant digit first. */
  function DigitsValue(d: string): nat
    requires forall k :: 0 <= k < |d| ==> IsDigit(d[k])
  {
    if |d| == 0 then 0 else 10 * DigitsValue(d[..|d| - 1]) + DigitValue(d[|d| - 1])
  }

  /** The shortest decimal rendering of a natural number, as `String(n)` produces it. */
  function NatToDecimal(n: nat): (r: string)
    ensures IsDigits(r)
    ensures n >= 10 ==> r[0] != '0'
    decreases n
  {
    if n < 10 then [DigitChar(n)] else NatToDecimal(n / 10) + [DigitChar(n % 10)]
  }

  /** `String(n)` (or a template literal `${n}`) for an integer. */
  function IntToDecimal(n: int): (r: string)
    ensures n >= 0 ==> IsDigits(r)
    ensures n < 0 ==> |r| > 1 && r[0] == '-' && IsDigits(r[1..])
  {
    if n < 0 then "-" + NatToDecimal(-n) else NatToDecimal(n)
  }

  lemma {:induction false} DigitsRoundTrip(n: nat)
    ensures DigitsValue(NatToDecimal(n)) == n
    decreases n
  {
    if n >= 10 {
      DigitsRoundTrip(n / 10);
      var d := NatToDecimal(n);
      assert d[..|d| - 1] == NatToDecimal(n / 10);
    }
  }

  // ---------------------------------------------------------------------------
  // Number(string)

  /** A JavaScript number as far as the components use it: an integer, or NaN. */
  datatype JsNumber = Num(value: int) | NaN {
    /** JavaScript truthiness: 0 and NaN are falsy. */
    predicate Truthy() { Num? && value != 0 }
  }

  /** `Number(s)`: white space around the literal is ignored, the empty string is 0,
      and an optionally signed run of decimal digits is its value. */
  function ToNumber(s: string): (n: JsNumber)
    ensures Trim(s) == [] ==> n == Num(0)
    ensures n.Num? && Trim(s) != [] ==> Trim(s)[|Trim(s)| - 1] in "0123456789"
  {
    var t := Trim(s);
    if t == [] then Num(0)
    else
      DigitsEndInDigit(t);
      if t[0] == '-' && IsDigits(t[1..]) then Num(0 - DigitsValue(t[1..]))
      else if t[0] == '+' && IsDigits(t[1..]) then Num(DigitsValue(t[1..]))
      else if IsDigits(t) then Num(DigitsValue(t))
      else NaN
  }

  /** Text that is, or that after its first character is, a run of digits ends in a
      digit. */
  lemma DigitsEndInDigit(t: string)
    requires |t| > 0
    ensures IsDigits(t) || IsDigits(t[1..]) ==> t[|t| - 1] in "0123456789"
  {
    var c := t[|t| - 1];
    if IsDigits(t) || IsDigits(t[1..]) {
      if !IsDigits(t) {
        assert c == t[1..][|t| - 2];
      }
      assert IsDigit(c);
      assert c == "0123456789"[c as int - '0' as int];
    }
  }

  /** `Number(String(n)) == n` for every integer. */
  lemma NumberOfDecimal(n: int)
    ensures ToNumber(IntToDecimal(n)) == Num(n)
  {
    var m: nat := if n < 0 then -n else n;
    var d := NatToDecimal(m);
    DigitsRoundTrip(m);
    var s := IntToDecimal(n);
    assert NoWhitespace(s) by {
      if n < 0 {
        assert s == "-" + d;
        forall k | 0 <= k < |s| ensures !IsWhitespace(s[k]) {
          if k > 0 { assert s[k] == d[k - 1]; }
        }
      }
    }
    TrimNoWhitespace(s);
    if n < 0 {
      assert s[1..] == d;
    }
  }

  /** A digit string, leading zeros allowed, reads back as its value. */
  lemma NumberOfDigits(d: string)
    requires IsDigits(d)
    ensures ToNumber(d) == Num(DigitsValue(d))
  {
    TrimNoWhitespace(d);
  }

  /** Text made of white space only (possibly empty). */
  predicate AllWhitespace(w: string) {
    forall k :: 0 <= k < |w| ==> IsWhitespace(w[k])
  }

  lemma {:induction false} TrimStartPadding(w: string, t: string)
    requires AllWhitespace(w) && (t == [] || !IsWhitespace(t[0]))
    ensures TrimStart(w + t) == t
    decreases |w|
  {
    if |w| > 0 {
      assert (w + t)[0] == w[0];
      assert (w + t)[1..] == w[1..] + t;
      TrimStartPadding(w[1..], t);
    } else {
      assert w + t == t;
    }
  }

  lemma {:induction false} TrimEndPadding(t: string, w: string)
    requires AllWhitespace(w) && (t == [] || !IsWhitespace(t[|t| - 1]))
    ensures TrimEnd(t + w) == t
    decreases |w|
  {
    if |w| > 0 {
      var u := t + w;
      assert u[|u| - 1] == w[|w| - 1];
      assert u[..|u| - 1] == t + w[..|w| - 1];
      TrimEndPadding(t, w[..|w| - 1]);
    } else {
      assert t + w == t;
    }
  }

  /** White space around text that neither starts nor ends with white space is exactly
      what `trim` removes. */
  lemma TrimPadding(w1: string, t: string, w2: string)
    requires AllWhitespace(w1) && AllWhitespace(w2)
    requires t == [] || (!IsWhitespace(t[0]) && !IsWhitespace(t[|t| - 1]))
    ensures Trim(w1 + t + w2) == t
  {
    assert w1 + t + w2 == w1 + (t + w2);
    if t == [] {
      assert t + w2 == w2;
      assert AllWhitespace(w1 + w2) by {
        forall k | 0 <= k < |w1 + w2| ensures IsWhitespace((w1 + w2)[k]) {
          if k >= |w1| { assert (w1 + w2)[k] == w2[k - |w1|]; }
        }
      }
      TrimStartPadding(w1 + w2, []);
      assert w1 + w2 + [] == w1 + w2;
    } else {
      assert (t + w2)[0] == t[0];
      TrimStartPadding(w1, t + w2);
      TrimEndPadding(t, w2);
    }
  }

  /** A signed run of digits, with any white space around it, reads as its value. */
  lemma NumberOfPaddedSigned(w1: string, sign: char, d: string, w2: string)
    requires AllWhitespace(w1) && AllWhitespace(w2) && IsDigits(d)
    requires sign == '+' || sign == '-'
    ensures ToNumber(w1 + [sign] + d + w2)
      == Num(if sign == '-' then 0 - DigitsValue(d) else DigitsValue(d))
  {
    var t := [sign] + d;
    assert t[|t| - 1] == d[|d| - 1];
    assert w1 + [sign] + d + w2 == w1 + t + w2;
    TrimPadding(w1, t, w2);
    assert t[1..] == d;
  }

  /** A signed or unsigned run of digits, with any white space around it, reads as its
      value; leading zeros do not matter. */
  lemma NumberOfPaddedDigits(w1: string, d: string, w2: string)
    requires AllWhitespace(w1) && AllWhitespace(w2) && IsDigits(d)
    ensures ToNumber(w1 + d + w2) == Num(DigitsValue(d))
    ensures ToNumber(w1 + "+" + d + w2) == Num(DigitsValue(d))
    ensures ToNumber(w1 + "-" + d + w2) == Num(0 - DigitsValue(d))
  {
    NumberOfPaddedUnsigned(w1, d, w2);
    assert w1 + "+" + d + w2 == w1 + ['+'] + d + w2;
    NumberOfPaddedSigned(w1, '+', d, w2);
    assert w1 + "-" + d + w2 == w1 + ['-'] + d + w2;
    NumberOfPaddedSigned(w1, '-', d, w2);
  }

  /** An unsigned run of digits, with any white space around it, reads as its value. */
  lemma NumberOfPaddedUnsigned(w1: string, d: string, w2: string)
    requires AllWhitespace(w1) && AllWhitespace(w2) && IsDigits(d)
    ensures ToNumber(w1 + d + w2) == Num(DigitsValue(d))
  {
    TrimPadding(w1, d, w2);
    NumberOfDigits(d);
  }

  /** Text whose trimmed form holds a character other than a digit reads as NaN, unless
      that character is a single leading sign. */
  lemma NonDigitIsNaN(s: string, k: int)
    requires 0 <= k < |Trim(s)| && !IsDigit(Trim(s)[k])
    requires k > 0 || (Trim(s)[0] != '+' && Trim(s)[0] != '-')
    ensures ToNumber(s) == NaN
  {
    var t := Trim(s);
    if k > 0 {
      assert t[1..][k - 1] == t[k];
    }
  }

  /** A sign with no digits after it reads as NaN. */
  lemma LoneSignIsNaN(s: string)
    requires Trim(s) == "+" || Trim(s) == "-"
    ensures ToNumber(s) == NaN
  {
    assert Trim(s)[1..] == [];
  }
}

=== FILE: locationform.dfy ===
/** The picture fields and required text fields of the add-location form
    (pages/admin/location/create.jsx). */
module LocationForm {
  import opened Wrappers
  import Validation

  /** A file chosen in the browser; only its identity matters here. */
  datatype Picture = Picture(name: string)

  /** The two picture fields: the main picture and the list of other pictures. */
  datatype Pictures = Pictures(main: Option<Picture>, others: seq<Picture>)

  /** What the user does to the picture fields. */
  datatype Event =
    | ChooseMain(chosen: seq<Picture>)
    | ClearMain
    | ChooseOthers(chosen: seq<Picture>)
    | RemoveOther(idx: int)

  /** `s.filter((_, index) => index !== idx)` on the part of a list that starts at
      position `offset`. */
  function DropIndex<T>(s: seq<T>, idx: int, offset: int): seq<T> {
    if |s| == 0 then []
    else (if offset == idx then [] else [s[0]]) + DropIndex(s[1..], idx, offset + 1)
  }

  /** The filter drops exactly the element at `idx`, or nothing when no element has
      that index. */
  lemma {:induction false} DropIndexSplice<T>(s: seq<T>, idx: int, offset: int)
    ensures offset <= idx < offset + |s| ==>
      DropIndex(s, idx, offset) == s[..idx - offset] + s[idx - offset + 1..]
    ensures !(offset <= idx < offset + |s|) ==> DropIndex(s, idx, offset) == s
    decreases |s|
  {
    if |s| > 0 {
      DropIndexSplice(s[1..], idx, offset + 1);
      if offset == idx {
        assert s[..0] + s[1..] == s[1..];
      } else if offset < idx < offset + |s| {
        assert s[1..][..idx - offset - 1] == s[1..idx - offset];
        assert [s[0]] + s[1..idx - offset] == s[..idx - offset];
        assert s[1..][idx - offset..] == s[idx - offset + 1..];
      } else {
        assert [s[0]] + s[1..] == s;
      }
    }
  }

  /** Removing the picture at `idx` from the list of other pictures. */
  function RemoveAt<T>(files: seq<T>, idx: int): (r: seq<T>)
    ensures 0 <= idx < |files| ==> |r| == |files| - 1
    ensures 0 <= idx < |files| ==> forall k :: 0 <= k < idx ==> r[k] == files[k]
    ensures 0 <= idx < |files| ==> forall k :: idx <= k < |r| ==> r[k] == files[k + 1]
    ensures !(0 <= idx < |files|) ==> r == files
  {
    DropIndexSplice(files, idx, 0);
    DropIndex(files, idx, 0)
  }

  /** Putting the removed picture back where it was restores the list. */
  lemma RemoveAtRestore<T>(files: seq<T>, idx: int)
    requires 0 <= idx < |files|
    ensures RemoveAt(files, idx)[..idx] + [files[idx]] + RemoveAt(files, idx)[idx..] == files
  {
    var r := RemoveAt(files, idx);
    var back := r[..idx] + [files[idx]] + r[idx..];
    assert |back| == |files|;
    forall k | 0 <= k < |files| ensures back[k] == files[k] {
      if k > idx {
        assert back[k] == r[k - 1];
      }
    }
  }

  /** One user action on the picture fields. Choosing a main picture keeps only the
      first chosen file, and nothing when the chooser was cancelled; clearing stores no
      picture; choosing other pictures replaces the whole list. */
  function Apply(p: Pictures, e: Event): (q: Pictures)
    ensures e.ChooseMain? && |e.chosen| > 0 ==> q == Pictures(Some(e.chosen[0]), p.others)
    ensures e.ChooseMain? && |e.chosen| == 0 ==> q == Pictures(None, p.others)
    ensures e.ClearMain? ==> q == Pictures(None, p.others)
    ensures e.ChooseOthers? ==> q == Pictures(p.main, e.chosen)
    ensures e.RemoveOther? ==> q.main == p.main
    ensures e.RemoveOther? && 0 <= e.idx < |p.others| ==> |q.others| == |p.others| - 1
    ensures e.RemoveOther? && 0 <= e.idx < |p.others| ==>
      multiset(q.others) + multiset{p.others[e.idx]} == multiset(p.others)
    ensures e.RemoveOther? && !(0 <= e.idx < |p.others|) ==> q.others == p.others
  {
    match e
    case ChooseMain(chosen) => p.(main := if |chosen| > 0 then Some(chosen[0]) else None)
    case ClearMain => p.(main := None)
    case ChooseOthers(chosen) => p.(others := chosen)
    case RemoveOther(idx) =>
      var r := RemoveAt(p.others, idx);
      assert 0 <= idx < |p.others| ==> multiset(r) + multiset{p.others[idx]} == multiset(p.others) by {
        if 0 <= idx < |p.others| {
          RemoveAtRestore(p.others, idx);
          assert r[..idx] + r[idx..] == r;
          calc {
            multiset(p.others);
            multiset(r[..idx] + [p.others[idx]] + r[idx..]);
            multiset(r[..idx]) + multiset{p.others[idx]} + multiset(r[idx..]);
            multiset(r) + multiset{p.others[idx]};
          }
        }
      }
      p.(others := r)
  }

  /** The preview and its delete button are shown only while a main picture is
      stored; after clearing, no preview remains whatever was chosen before. */
  lemma ClearAfterChoose(p: Pictures, chosen: seq<Picture>)
    ensures Apply(Apply(p, ChooseMain(chosen)), ClearMain) == Apply(p, ClearMain)
    ensures Apply(Apply(p, ClearMain), ClearMain) == Apply(p, ClearMain)
  {
  }

  // ---------------------------------------------------------------------------
  // Required text fields

  /** The messages shown under the three required inputs. */
  datatype Errors = Errors(name: Option<string>, telephone: Option<string>, email: Option<string>) {
    predicate None() { name.None? && telephone.None? && email.None? }
  }

  function CheckRequired(name: string, telephone: string, email: string): (e: Errors)
    ensures e.name == (if name == "" then Some("Name is required") else None)
    ensures e.telephone == (if telephone == "" then Some("Telephone is required") else None)
    ensures e.email == (if email == "" then Some("Email is required") else None)
  {
    Errors(
      Validation.Required(name, "Name is required"),
      Validation.Required(telephone, "Telephone is required"),
      Validation.Required(email, "Email is required"))
  }

  /** The form is submitted exactly when none of the three inputs is empty. */
  lemma SubmitsIffFilled(name: string, telephone: string, email: string)
    ensures CheckRequired(name, telephone, email).None() <==> name != "" && telephone != "" && email != ""
  {
  }
}

=== FILE: ordertable.dfy ===
/** The admin order table (pages/admin/orders/index.jsx): the page read from the query
    string, the status sent for the selected filter, the row numbers, the "Showing X to
    Y of N" line, the page buttons, and the label shown for an order status. */
module OrderTable {
  import opened Wrappers
  import opened JsText

  /** Orders per page. */
  const Limit: nat := 10

  /** The statuses the filter select offers, besides "all". */
  const StatusOptions: seq<string> := [
    "Requested", "Placed", "PickedUp", "ForPacking", "Packed", "OnDelivery",
    "Delivered", "Complete", "Cancelled", "ToReturn", "Returned", "Failed"]

  // ---------------------------------------------------------------------------
  // Request parameters

  /** `Number(searchParams.get('page')) || 1`: a missing parameter reads as
      `Number(null)`, which is 0; 0 and NaN fall back to the first page. */
  function PageFromQuery(query: Option<string>): (page: int)
    ensures page != 0
    ensures query.None? ==> page == 1
    ensures query.Some? && ToNumber(query.value).Truthy() ==> page == ToNumber(query.value).value
    ensures query.Some? && !ToNumber(query.value).Truthy() ==> page == 1
  {
    var n := match query case None => Num(0) case Some(text) => ToNumber(text);
    if n.Truthy() then n.value else 1
  }

  /** `filter !== 'all' ? filter : undefined`. */
  function StatusParam(filter: string): (status: Option<string>)
    ensures status.None? <==> filter == "all"
    ensures status.Some? ==> status.value == filter
  {
    if filter != "all" then Some(filter) else None
  }

  /** Different filters, and so different choices of the filter select, send different
      requests. */
  lemma StatusParamDistinguishesChoices(f: string, g: string)
    requires StatusParam(f) == StatusParam(g)
    ensures f == g
  {
  }

  // ---------------------------------------------------------------------------
  // Pagination

  /** `Math.ceil(total / limit)`: the fewest pages of `Limit` rows that hold `total`. */
  function PageCount(total: nat): (n: nat)
    ensures n * Limit >= total
    ensures n > 0 ==> (n - 1) * Limit < total
  {
    (total + Limit - 1) / Limit
  }

  /** `.filter(p => p !== page)` over a list of page numbers. */
  function Without(pages: seq<int>, page: int): (r: seq<int>)
    ensures forall p :: p in r <==> p in pages && p != page
    ensures |r| <= |pages|
  {
    if |pages| == 0 then []
    else (if pages[0] == page then [] else [pages[0]]) + Without(pages[1..], page)
  }

  /** `Array.from({ length: count }, (_, i) => i + 1)`. */
  function PagePool(count: nat): (pool: seq<int>)
    ensures |pool| == count
    ensures forall i :: 0 <= i < count ==> pool[i] == i + 1
  {
    seq(count, i requires 0 <= i < count => i + 1)
  }

  predicate StrictlyIncreasing(s: seq<int>) {
    forall i, j :: 0 <= i < j < |s| ==> s[i] < s[j]
  }

  lemma {:induction false} WithoutKeepsOrder(pages: seq<int>, page: int)
    requires StrictlyIncreasing(pages)
    ensures StrictlyIncreasing(Without(pages, page))
    decreases |pages|
  {
    if |pages| > 0 {
      WithoutKeepsOrder(pages[1..], page);
      var rest := Without(pages[1..], page);
      forall k | 0 <= k < |rest| ensures pages[0] < rest[k] {
        assert rest[k] in pages[1..];
      }
    }
  }

  lemma {:induction false} WithoutLength(pages: seq<int>, page: int)
    requires StrictlyIncreasing(pages)
    ensures |Without(pages, page)| == if page in pages then |pages| - 1 else |pages|
    decreases |pages|
  {
    if |pages| > 0 {
      WithoutLength(pages[1..], page);
      assert pages == [pages[0]] + pages[1..];
      if pages[0] == page {
        assert page !in pages[1..];
      }
    }
  }

  /** The buttons under the table: one per page from 1 to the page count, in ascending
      order, except the page on show. */
  function PageButtons(total: nat, page: int): (buttons: seq<int>)
    ensures forall p :: p in buttons <==> 1 <= p <= PageCount(total) && p != page
    ensures StrictlyIncreasing(buttons)
    ensures |buttons| == if 1 <= page <= PageCount(total) then PageCount(total) - 1 else PageCount(total)
  {
    var pool := PagePool(PageCount(total));
    assert forall p :: p in pool <==> 1 <= p <= PageCount(total) by {
      forall p | 1 <= p <= PageCount(total) ensures p in pool {
        assert pool[p - 1] == p;
      }
    }
    WithoutKeepsOrder(pool, page);
    WithoutLength(pool, page);
    Without(pool, page)
  }

  /** Each button, once pressed, loads the page it shows. */
  lemma ButtonLoadsItsPage(total: nat, page: int, b: int)
    requires b in PageButtons(total, page)
    ensures PageFromQuery(Some(IntToDecimal(b))) == b
  {
    NumberOfDecimal(b);
  }

  // ---------------------------------------------------------------------------
  // Row numbers and the range line

  /** The number in the first column of the row at `index` on `page`. */
  function RowNumber(page: int, index: nat): (n: int)
    ensures index < Limit ==> (page - 1) * Limit < n <= page * Limit
  {
    (page - 1) * 10 + index + 1
  }

  /** The range of the "Showing ... of N results" line. */
  datatype Shown = NothingShown | Span(first: int, last: int)

  function ShownRange(total: nat, page: int, rows: nat): (r: Shown)
    ensures r.NothingShown? <==> total == 0
  {
    if total == 0 then NothingShown else Span(page * Limit - 9, page * Limit - 10 + rows)
  }

  /** The range text: '0' when there are no orders, "X to Y" otherwise. */
  function RangeText(r: Shown): (text: string)
    ensures text == "0" <==> r.NothingShown?
  {
    match r
    case NothingShown => "0"
    case Span(first, last) => IntToDecimal(first) + " to " + IntToDecimal(last)
  }

  /** The range line names the numbers of the first and last rows on show, and spans as
      many numbers as there are rows. */
  lemma RangeMatchesRows(total: nat, page: int, rows: nat)
    requires total > 0
    ensures ShownRange(total, page, rows).first == RowNumber(page, 0)
    ensures rows > 0 ==> ShownRange(total, page, rows).last == RowNumber(page, rows - 1)
    ensures ShownRange(total, page, rows).last - ShownRange(total, page, rows).first + 1 == rows
  {
  }

  /** When the server returns a full page (or what is left of the orders on the last
      one), the range lies within 1..total and the last page ends at `total`. */
  lemma RangeWithinTotal(total: nat, page: int, rows: nat)
    requires 1 <= page <= PageCount(total)
    requires rows == if total - (page - 1) * Limit < Limit then total - (page - 1) * Limit else Limit
    ensures ShownRange(total, page, rows).Span?
    ensures 1 <= ShownRange(total, page, rows).first <= ShownRange(total, page, rows).last <= total
    ensures page == PageCount(total) ==> ShownRange(total, page, rows).last == total
  {
  }

  /** A page past the last one (a hand-edited `?page=`) gets no rows, and the line
      then names a range that ends before it starts, such as "41 to 40 of 25". */
  lemma RangeBeyondLastPage(total: nat, page: int)
    requires total > 0 && page > PageCount(total)
    ensures ShownRange(total, page, 0).last < ShownRange(total, page, 0).first
    ensures ShownRange(total, page, 0).first > total
  {
  }

  /** With no orders the line reads '0' whatever the page and the rows. */
  lemma RangeTextNoOrders(page: int, rows: nat)
    ensures RangeText(ShownRange(0, page, rows)) == "0"
    ensures forall total: nat :: RangeText(ShownRange(total, page, rows)) == "0" ==> total == 0
  {
  }

  lemma DecimalHasNoSpace(n: int)
    ensures ' ' !in IntToDecimal(n)
  {
    var r := IntToDecimal(n);
    if n < 0 {
      assert forall k :: 0 < k < |r| ==> r[k] == r[1..][k - 1];
    }
    assert forall k :: 0 <= k < |r| ==> r[k] != ' ';
  }

  /** The words of "first to last". */
  lemma RangeWords(a: string, b: string)
    requires ' ' !in a && ' ' !in b
    ensures Split(a + " to " + b, ' ') == [a, "to", b]
  {
    var tail := "to" + [' '] + b;
    assert a + " to " + b == a + [' '] + tail;
    SplitAfterPiece(a, ' ', tail);
    assert ' ' !in "to";
    SplitAfterPiece("to", ' ', b);
    SplitWithoutSeparator(b, ' ');
  }

  /** A shown range reads, word by word, as its first row number, "to", and its last row
      number, and both numbers read back as the rows they name. */
  lemma RangeTextReadsBack(r: Shown)
    requires r.Span?
    ensures Split(RangeText(r), ' ') == [IntToDecimal(r.first), "to", IntToDecimal(r.last)]
    ensures ToNumber(Split(RangeText(r), ' ')[0]) == Num(r.first)
    ensures ToNumber(Split(RangeText(r), ' ')[2]) == Num(r.last)
  {
    DecimalHasNoSpace(r.first);
    DecimalHasNoSpace(r.last);
    RangeWords(IntToDecimal(r.first), IntToDecimal(r.last));
    NumberOfDecimal(r.first);
    NumberOfDecimal(r.last);
  }

  lemma RangeTextExamples()
    ensures RangeText(ShownRange(25, 3, 5)) == "21 to 25"
  {
    assert NatToDecimal(21) == "21";
    assert NatToDecimal(25) == "25";
  }

  // ---------------------------------------------------------------------------
  // Status labels

  /** `replace(/([A-Z])/g, ' $1')`: a space before every ASCII capital. */
  function SpaceBeforeCapitals(s: string): (r: string)
    ensures |r| >= |s|
  {
    if |s| == 0 then ""
    else (if IsAsciiUpper(s[0]) then [' ', s[0]] else [s[0]]) + SpaceBeforeCapitals(s[1..])
  }

  /** The label shown for a status: `status.replace(/([A-Z])/g, ' $1').trim()`. */
  function Label(status: string): (shown: string)
    ensures shown == [] || (!IsWhitespace(shown[0]) && !IsWhitespace(shown[|shown| - 1]))
  {
    Trim(SpaceBeforeCapitals(status))
  }

  /** The text with its spaces deleted. */
  function RemoveSpaces(s: string): (r: string)
    ensures ' ' !in r
  {
    if |s| == 0 then "" else (if s[0] == ' ' then "" else [s[0]]) + RemoveSpaces(s[1..])
  }

  lemma {:induction false} RemoveSpacesConcat(a: string, b: string)
    ensures RemoveSpaces(a + b) == RemoveSpaces(a) + RemoveSpaces(b)
    decreases |a|
  {
    if |a| == 0 {
      assert a + b == b;
    } else {
      assert (a + b)[0] == a[0];
      assert (a + b)[1..] == a[1..] + b;
      RemoveSpacesConcat(a[1..], b);
    }
  }

  lemma {:induction false} RemoveSpacesNone(s: string)
    requires ' ' !in s
    ensures RemoveSpaces(s) == s
    decreases |s|
  {
    if |s| > 0 {
      RemoveSpacesNone(s[1..]);
      assert [s[0]] + s[1..] == s;
    }
  }

  /** Inserting spaces and then deleting them gives back the text without its spaces. */
  lemma {:induction false} RemoveSpacesOfSpaced(s: string)
    ensures RemoveSpaces(SpaceBeforeCapitals(s)) == RemoveSpaces(s)
    decreases |s|
  {
    if |s| > 0 {
      var head := if IsAsciiUpper(s[0]) then [' ', s[0]] else [s[0]];
      RemoveSpacesConcat(head, SpaceBeforeCapitals(s[1..]));
      RemoveSpacesOfSpaced(s[1..]);
      if IsAsciiUpper(s[0]) {
        assert head[1..] == [s[0]];
      }
    }
  }

  /** Every white space the spacing produces or keeps is either a space it inserted or
      one of the text's own. */
  lemma {:induction false} SpacedWhitespace(s: string)
    requires NoWhitespace(s)
    ensures OnlySpaces(SpaceBeforeCapitals(s))
    decreases |s|
  {
    if |s| > 0 {
      SpacedWhitespace(s[1..]);
      var head := if IsAsciiUpper(s[0]) then [' ', s[0]] else [s[0]];
      var t := SpaceBeforeCapitals(s);
      forall k | 0 <= k < |t| && IsWhitespace(t[k]) ensures t[k] == ' ' {
        if k >= |head| {
          assert t[k] == SpaceBeforeCapitals(s[1..])[k - |head|];
        }
      }
    }
  }

  /** The only white space in `t` is the plain space. */
  predicate OnlySpaces(t: string) {
    forall k :: 0 <= k < |t| && IsWhitespace(t[k]) ==> t[k] == ' '
  }

  lemma {:induction false} TrimStartSpaces(t: string)
    requires OnlySpaces(t)
    ensures RemoveSpaces(TrimStart(t)) == RemoveSpaces(t)
    decreases |t|
  {
    if |t| > 0 && IsWhitespace(t[0]) {
      assert t[0] == ' ';
      var u := t[1..];
      assert OnlySpaces(u) by {
        forall k | 0 <= k < |u| && IsWhitespace(u[k]) ensures u[k] == ' ' {
          assert u[k] == t[k + 1];
        }
      }
      TrimStartSpaces(u);
      assert TrimStart(t) == TrimStart(u);
      assert RemoveSpaces(t) == RemoveSpaces(u);
    }
  }

  lemma {:induction false} TrimEndSpaces(t: string)
    requires OnlySpaces(t)
    ensures RemoveSpaces(TrimEnd(t)) == RemoveSpaces(t)
    decreases |t|
  {
    if |t| > 0 && IsWhitespace(t[|t| - 1]) {
      var u := t[..|t| - 1];
      assert t == u + [' '];
      assert OnlySpaces(u) by {
        forall k | 0 <= k < |u| && IsWhitespace(u[k]) ensures u[k] == ' ' {
          assert u[k] == t[k];
        }
      }
      TrimEndSpaces(u);
      assert TrimEnd(t) == TrimEnd(u);
      RemoveSpacesConcat(u, [' ']);
    }
  }

  /** Trimming text whose only white space is spaces deletes nothing but spaces. */
  lemma RemoveSpacesTrim(t: string)
    requires OnlySpaces(t)
    ensures RemoveSpaces(Trim(t)) == RemoveSpaces(t)
  {
    TrimStartSpaces(t);
    var u := TrimStart(t);
    assert OnlySpaces(u) by {
      forall k | 0 <= k < |u| && IsWhitespace(u[k]) ensures u[k] == ' ' {
        assert u[k] == t[|t| - |u| + k];
      }
    }
    TrimEndSpaces(u);
  }

  /** Deleting the spaces of a label gives back the status it was made from, for every
      status written without white space. */
  lemma LabelUndone(status: string)
    requires NoWhitespace(status)
    ensures RemoveSpaces(Label(status)) == status
  {
    SpacedWhitespace(status);
    RemoveSpacesTrim(SpaceBeforeCapitals(status));
    RemoveSpacesOfSpaced(status);
    assert ' ' !in status by {
      assert IsWhitespace(' ');
    }
    RemoveSpacesNone(status);
  }

  /** In a spaced status every space stands right before a capital, and every capital
      right after a space. */
  lemma {:induction false} SpacesMarkCapitals(s: string)
    requires NoWhitespace(s)
    ensures forall k :: 0 <= k < |SpaceBeforeCapitals(s)| && SpaceBeforeCapitals(s)[k] == ' ' ==>
      k + 1 < |SpaceBeforeCapitals(s)| && IsAsciiUpper(SpaceBeforeCapitals(s)[k + 1])
    ensures forall k :: 0 <= k < |SpaceBeforeCapitals(s)| && IsAsciiUpper(SpaceBeforeCapitals(s)[k]) ==>
      k > 0 && SpaceBeforeCapitals(s)[k - 1] == ' '
    decreases |s|
  {
    if |s| > 0 {
      var u := SpaceBeforeCapitals(s[1..]);
      assert NoWhitespace(s[1..]) by {
        forall k | 0 <= k < |s[1..]| ensures !IsWhitespace(s[1..][k]) {
          assert s[1..][k] == s[k + 1];
        }
      }
      SpacesMarkCapitals(s[1..]);
      var head := if IsAsciiUpper(s[0]) then [' ', s[0]] else [s[0]];
      var t := SpaceBeforeCapitals(s);
      assert t == head + u;
      assert !IsWhitespace(s[0]);
      forall k | 0 <= k < |t| && t[k] == ' '
        ensures k + 1 < |t| && IsAsciiUpper(t[k + 1])
      {
        if k >= |head| {
          assert t[k] == u[k - |head|];
          assert t[k + 1] == u[k - |head| + 1];
        }
      }
      forall k | 0 <= k < |t| && IsAsciiUpper(t[k])
        ensures k > 0 && t[k - 1] == ' '
      {
        if k >= |head| {
          var j := k - |head|;
          assert t[k] == u[j];
          assert t[k - 1] == u[j - 1];
        }
      }
    }
  }

  /** The spacing ends with the status's own last character. */
  lemma {:induction false} SpacedLast(s: string)
    requires |s| > 0
    ensures |SpaceBeforeCapitals(s)| > 0
    ensures SpaceBeforeCapitals(s)[|SpaceBeforeCapitals(s)| - 1] == s[|s| - 1]
    decreases |s|
  {
    if |s| > 1 {
      SpacedLast(s[1..]);
    }
  }

  /** The label of a status that starts with a capital is its spacing less the one
      space put before that capital. */
  lemma LabelDropsLeadingSpace(s: string)
    requires NoWhitespace(s) && |s| > 0 && IsAsciiUpper(s[0])
    ensures Label(s) == SpaceBeforeCapitals(s)[1..]
  {
    var t := SpaceBeforeCapitals(s);
    SpacedLast(s);
    var rest := t[1..];
    assert t == [' '] + rest;
    assert rest[0] == s[0];
    assert rest[|rest| - 1] == t[|t| - 1];
    assert !IsWhitespace(s[0]) && !IsWhitespace(s[|s| - 1]);
    TrimLeadingSpace(rest);
  }

  /** A status that does not start with a capital gains no leading space, and its label
      is its spacing. */
  lemma LabelKeepsSpacing(s: string)
    requires NoWhitespace(s) && (|s| == 0 || !IsAsciiUpper(s[0]))
    ensures Label(s) == SpaceBeforeCapitals(s)
  {
    var t := SpaceBeforeCapitals(s);
    if |s| > 0 {
      SpacedLast(s);
      assert t[0] == s[0];
      assert !IsWhitespace(s[0]) && !IsWhitespace(s[|s| - 1]);
    }
    TrimUntouched(t);
  }

  lemma StatusOptionsUndone()
    ensures forall k :: 0 <= k < |StatusOptions| ==> RemoveSpaces(Label(StatusOptions[k])) == StatusOptions[k]
  {
    forall k | 0 <= k < |StatusOptions|
      ensures RemoveSpaces(Label(StatusOptions[k])) == StatusOptions[k]
    {
      var o := StatusOptions[k];
      assert forall j :: 0 <= j < |o| ==> IsAsciiUpper(o[j]) || IsAsciiLower(o[j]);
      LabelUndone(o);
    }
  }

  lemma {:induction false} SpaceBeforeCapitalsConcat(a: string, b: string)
    ensures SpaceBeforeCapitals(a + b) == SpaceBeforeCapitals(a) + SpaceBeforeCapitals(b)
    decreases |a|
  {
    if |a| == 0 {
      assert a + b == b;
    } else {
      assert (a + b)[0] == a[0];
      assert (a + b)[1..] == a[1..] + b;
      SpaceBeforeCapitalsConcat(a[1..], b);
    }
  }

  predicate NoCapitals(s: string) {
    forall k :: 0 <= k < |s| ==> !IsAsciiUpper(s[k])
  }

  lemma {:induction false} NoCapitalsUnchanged(s: string)
    requires NoCapitals(s)
    ensures SpaceBeforeCapitals(s) == s
    decreases |s|
  {
    if |s| > 0 {
      NoCapitalsUnchanged(s[1..]);
      assert [s[0]] + s[1..] == s;
    }
  }

  /** A capital followed by lower-case letters gains one leading space. */
  lemma SpacedWord(c: char, rest: string)
    requires IsAsciiUpper(c) && NoCapitals(rest)
    ensures SpaceBeforeCapitals([c] + rest) == [' ', c] + rest
  {
    SpaceBeforeCapitalsConcat([c], rest);
    NoCapitalsUnchanged(rest);
  }

  /** Two capitalised words run together gain a space before each. */
  lemma SpacedTwoWords(c: char, rest: string, d: char, rest': string)
    requires IsAsciiUpper(c) && IsAsciiUpper(d) && NoCapitals(rest) && NoCapitals(rest')
    ensures SpaceBeforeCapitals([c] + rest + [d] + rest') == [' ', c] + rest + [' ', d] + rest'
  {
    var first, second := [c] + rest, [d] + rest';
    assert [c] + rest + [d] + rest' == first + second;
    SpaceBeforeCapitalsConcat(first, second);
    SpacedWord(c, rest);
    SpacedWord(d, rest');
    assert [' ', c] + rest + [' ', d] + rest' == ([' ', c] + rest) + ([' ', d] + rest');
  }

  lemma SpacedOnDelivery()
    ensures SpaceBeforeCapitals("OnDelivery") == " On Delivery"
  {
    var c, rest, d, rest' := 'O', "n", 'D', "elivery";
    SpacedTwoWords(c, rest, d, rest');
    assert [c] + rest + [d] + rest' == "OnDelivery";
    assert [' ', c] + rest + [' ', d] + rest' == " On Delivery";
  }

  /** A label made from a status that starts with a capital: one leading space,
      which `trim` removes. */
  lemma TrimLeadingSpace(t: string)
    requires |t| > 0 && !IsWhitespace(t[0]) && !IsWhitespace(t[|t| - 1])
    ensures Trim([' '] + t) == t
  {
    var u := [' '] + t;
    assert u[1..] == t;
    assert TrimStart(u) == TrimStart(t);
    TrimUntouched(t);
  }

  lemma LabelOnDelivery()
    ensures Label("OnDelivery") == "On Delivery"
  {
    SpacedOnDelivery();
    var t := "On Delivery";
    assert " On Delivery" == [' '] + t;
    assert |t| == 11 && t[0] == 'O' && t[10] == 'y';
    TrimLeadingSpace(t);
  }

  lemma SpacedPlaced()
    ensures SpaceBeforeCapitals("Placed") == " Placed"
  {
    assert "Placed" == ['P'] + "laced";
    SpacedWord('P', "laced");
  }

  lemma LabelPlaced()
    ensures Label("Placed") == "Placed"
  {
    SpacedPlaced();
    var t := "Placed";
    assert " Placed" == [' '] + t;
    TrimLeadingSpace(t);
  }
}

=== FILE: slots.dfy ===
/** Ordering of the appointment slots offered for a date (pages/book.jsx): each slot's
    start time "h:mm AM" is read with `split`, `Number` and a case-insensitive period
    test, converted to minutes after midnight, and the slot list is sorted by it. */
module Slots {
  import opened Wrappers
  import opened JsText

  /** How the second word of a start time is read: only "am" and "pm" (in any letter
      case) change the hour; any other word leaves it as written. */
  datatype Period = AM | PM | Unmarked

  /** A start time as the comparator reads it: hour and minute are the numbers before
      and after the colon, `period` is the word after the first space. */
  datatype ClockTime = ClockTime(hour: int, minute: int, period: string)

  datatype Slot = Slot(id: int, startTime: string)

  /** Why a start time cannot be read: no space, so the period is `undefined` and
      `toLowerCase` throws; or hour or minute is not a number, so the difference is NaN. */
  datatype ParseError = MissingPeriod | NotANumber

  function PeriodOf(word: string): Period {
    var w := Lower(word);
    if w == "pm" then PM else if w == "am" then AM else Unmarked
  }

  /** The hour on a 24-hour clock: "12 AM" is midnight, "12 PM" is noon. */
  function Hour24(t: ClockTime): int {
    match PeriodOf(t.period)
    case PM => if t.hour != 12 then t.hour + 12 else t.hour
    case AM => if t.hour == 12 then 0 else t.hour
    case Unmarked => t.hour
  }

  function MinutesOfDay(t: ClockTime): int {
    Hour24(t) * 60 + t.minute
  }

  /** A time as a person writes it on a 12-hour clock. */
  predicate WellFormed(t: ClockTime) {
    1 <= t.hour <= 12 && 0 <= t.minute <= 59 && PeriodOf(t.period) != Unmarked
  }

  /** The same time of day, whatever the letter case of the period. */
  predicate SameClock(a: ClockTime, b: ClockTime) {
    a.hour == b.hour && a.minute == b.minute && PeriodOf(a.period) == PeriodOf(b.period)
  }

  lemma Hour24Cases(t: ClockTime)
    ensures PeriodOf(t.period) == AM && t.hour == 12 ==> Hour24(t) == 0
    ensures PeriodOf(t.period) == PM && t.hour == 12 ==> Hour24(t) == 12
    ensures PeriodOf(t.period) == PM && t.hour != 12 ==> Hour24(t) == t.hour + 12
    ensures PeriodOf(t.period) == AM && t.hour != 12 ==> Hour24(t) == t.hour
  {
  }

  /** The 24-hour reading agrees with the 12-hour one: the hour is the same modulo 12,
      and it is in the afternoon exactly when the period says PM. */
  lemma Hour24Meaning(t: ClockTime)
    requires WellFormed(t)
    ensures 0 <= Hour24(t) < 24
    ensures Hour24(t) % 12 == t.hour % 12
    ensures Hour24(t) >= 12 <==> PeriodOf(t.period) == PM
  {
  }

  /** The period test ignores letter case: "PM", "pm", "Pm" and "pM" read alike. */
  lemma PeriodIgnoresCase(p: string, q: string)
    requires Lower(p) == Lower(q)
    ensures PeriodOf(p) == PeriodOf(q)
  {
  }

  lemma PmSpellings(h: int, m: int)
    ensures MinutesOfDay(ClockTime(h, m, "PM")) == MinutesOfDay(ClockTime(h, m, "pm"))
    ensures MinutesOfDay(ClockTime(h, m, "Pm")) == MinutesOfDay(ClockTime(h, m, "pm"))
  {
    assert Lower("PM") == "pm";
    assert Lower("Pm") == "pm";
  }

  lemma MinutesInDay(t: ClockTime)
    requires WellFormed(t)
    ensures 0 <= MinutesOfDay(t) < 1440
  {
    Hour24Meaning(t);
  }

  /** Well-formed times have the same minutes of the day exactly when they are the same
      clock time. */
  lemma {:induction false} MinutesInjective(a: ClockTime, b: ClockTime)
    requires WellFormed(a) && WellFormed(b)
    ensures MinutesOfDay(a) == MinutesOfDay(b) <==> SameClock(a, b)
  {
    Hour24Meaning(a);
    Hour24Meaning(b);
    if MinutesOfDay(a) == MinutesOfDay(b) {
      assert Hour24(a) == Hour24(b) && a.minute == b.minute;
    }
  }

  /** The comparator of pages/book.jsx:593-614 on two read start times. */
  function Compare(a: ClockTime, b: ClockTime): (d: int)
    ensures d == 0 <==> MinutesOfDay(a) == MinutesOfDay(b)
    ensures d < 0 <==> MinutesOfDay(a) < MinutesOfDay(b)
    ensures WellFormed(a) && WellFormed(b) ==> (d == 0 <==> SameClock(a, b))
  {
    assert WellFormed(a) && WellFormed(b) ==>
        (MinutesOfDay(a) == MinutesOfDay(b) <==> SameClock(a, b)) by {
      if WellFormed(a) && WellFormed(b) {
        MinutesInjective(a, b);
      }
    }
    MinutesOfDay(a) - MinutesOfDay(b)
  }

  lemma CompareAntisymmetric(a: ClockTime, b: ClockTime)
    ensures Compare(a, b) == -Compare(b, a)
    ensures Compare(a, a) == 0
  {
  }

  /** The clock time written for a minute of the day, with a lower-case period:
      the inverse of `MinutesOfDay` on well-formed times. */
  function ClockOf(m: int): (t: ClockTime)
    requires 0 <= m < 1440
    ensures WellFormed(t)
  {
    var h := m / 60;
    var period := if h >= 12 then "pm" else "am";
    assert Lower(period) == period;
    ClockTime(if h % 12 == 0 then 12 else h % 12, m % 60, period)
  }

  lemma ClockOfRoundTrip(m: int)
    requires 0 <= m < 1440
    ensures MinutesOfDay(ClockOf(m)) == m
  {
    assert Lower("pm") == "pm" && Lower("am") == "am";
  }

  lemma {:induction false} MinutesRoundTrip(t: ClockTime)
    requires WellFormed(t)
    ensures SameClock(ClockOf(MinutesOfDay(t)), t)
  {
    MinutesInDay(t);
    ClockOfRoundTrip(MinutesOfDay(t));
    MinutesInjective(ClockOf(MinutesOfDay(t)), t);
  }

  // ---------------------------------------------------------------------------
  // Reading a start time

  /** `const [time, period] = startTime.split(' ')` and
      `let [hour, minute] = time.split(':').map(Number)`. */
  function ParseStartTime(s: string): (r: Result<ClockTime, ParseError>)
    ensures r == Failure(MissingPeriod) <==> ' ' !in s
    ensures r.Success? ==> ' ' !in r.value.period
  {
    var words := Split(s, ' ');
    if |words| < 2 then
      assert ' ' !in s by {
        JoinSplit(s, ' ');
      }
      Failure(MissingPeriod)
    else
      assert ' ' in s by {
        JoinSplit(s, ' ');
        assert s == words[0] + [' '] + Join(words[1..], ' ');
        assert s[|words[0]|] == ' ';
      }
      var fields := Split(words[0], ':');
      var hour := ToNumber(fields[0]);
      var minute := if |fields| >= 2 then ToNumber(fields[1]) else NaN;
      if hour.NaN? || minute.NaN? then Failure(NotANumber)
      else Success(ClockTime(hour.value, minute.value, words[1]))
  }

  /** The two digits of a minute, zero-padded. */
  function TwoDigits(m: nat): (d: string)
    requires m < 100
    ensures IsDigits(d) && |d| == 2
  {
    [DigitChar(m / 10), DigitChar(m % 10)]
  }

  /** The "h:mm" part of a start time as the server writes it. */
  function TimeText(t: ClockTime): string
    requires 0 <= t.hour && 0 <= t.minute < 100
  {
    NatToDecimal(t.hour) + ":" + TwoDigits(t.minute)
  }

  /** A start time as the server writes it, "9:05 AM": the hour without padding and the
      minute on two digits. */
  function Render(t: ClockTime): string
    requires 0 <= t.hour && 0 <= t.minute < 100
  {
    TimeText(t) + " " + t.period
  }

  lemma RenderWords(t: ClockTime)
    requires 0 <= t.hour && 0 <= t.minute < 100 && ' ' !in t.period
    ensures Split(Render(t), ' ') == [TimeText(t), t.period]
  {
    var time := TimeText(t);
    assert ' ' !in time by {
      assert forall k :: 0 <= k < |time| ==> IsDigit(time[k]) || time[k] == ':';
    }
    assert Render(t) == time + [' '] + t.period;
    SplitAfterPiece(time, ' ', t.period);
    SplitWithoutSeparator(t.period, ' ');
  }

  lemma TimeFields(t: ClockTime)
    requires 0 <= t.hour && 0 <= t.minute < 100
    ensures Split(TimeText(t), ':') == [NatToDecimal(t.hour), TwoDigits(t.minute)]
  {
    var h := NatToDecimal(t.hour);
    var mm := TwoDigits(t.minute);
    assert ':' !in h by {
      assert forall k :: 0 <= k < |h| ==> IsDigit(h[k]);
    }
    assert ':' !in mm by {
      assert forall k :: 0 <= k < |mm| ==> IsDigit(mm[k]);
    }
    assert TimeText(t) == h + [':'] + mm;
    SplitAfterPiece(h, ':', mm);
    SplitWithoutSeparator(mm, ':');
  }

  lemma TwoDigitsValue(m: nat)
    requires m < 100
    ensures ToNumber(TwoDigits(m)) == Num(m)
  {
    var d := TwoDigits(m);
    NumberOfDigits(d);
    assert d[..1] == [DigitChar(m / 10)];
    assert d[..1][..0] == [];
    assert DigitsValue(d[..1]) == m / 10;
    assert DigitsValue(d) == 10 * (m / 10) + m % 10;
  }

  /** Every start time written in the server's form reads back as the time it shows. */
  lemma ParseRender(t: ClockTime)
    requires 0 <= t.hour && 0 <= t.minute < 100 && ' ' !in t.period
    ensures ParseStartTime(Render(t)) == Success(t)
  {
    RenderWords(t);
    TimeFields(t);
    NumberOfDigits(NatToDecimal(t.hour));
    DigitsRoundTrip(t.hour);
    TwoDigitsValue(t.minute);
  }

  // ---------------------------------------------------------------------------
  // Sorting the slots

  /** The start time the comparator reads for a slot; a start time that cannot be read
      never reaches the sort (see `SortSlots`), and stands for midnight here. */
  function StartTime(s: Slot): (t: ClockTime)
    ensures Readable(s) ==> Success(t) == ParseStartTime(s.startTime)
  {
    match ParseStartTime(s.startTime)
    case Success(t) => t
    case Failure(_) => ClockTime(0, 0, "")
  }

  /** The minutes after midnight the comparator computes for a slot. */
  function StartMinutes(s: Slot): int {
    MinutesOfDay(StartTime(s))
  }

  /** The comparator as `Array.prototype.sort` calls it on two slots: `Compare` on the
      two start times read. */
  function CompareSlots(a: Slot, b: Slot): (d: int)
    ensures Readable(a) && Readable(b) ==>
      d == Compare(ParseStartTime(a.startTime).value, ParseStartTime(b.startTime).value)
  {
    Compare(StartTime(a), StartTime(b))
  }

  /** Ordered by `key`: no element has a larger key than one after it. */
  ghost predicate SortedBy<T>(xs: seq<T>, key: T -> int) {
    forall i, j :: 0 <= i < j < |xs| ==> key(xs[i]) <= key(xs[j])
  }

  /** Putting the smallest element in front of a sorted list keeps it sorted. */
  lemma SortedCons<T>(y: T, x: T, ys: seq<T>, rest: seq<T>, key: T -> int)
    requires SortedBy(ys, key) && SortedBy(rest, key)
    requires key(y) <= key(x)
    requires multiset(rest) == multiset(ys) + multiset{x}
    requires forall k :: 0 <= k < |ys| ==> key(y) <= key(ys[k])
    ensures SortedBy([y] + rest, key)
  {
    var r := [y] + rest;
    forall k | 0 <= k < |rest| ensures key(y) <= key(rest[k]) {
      assert rest[k] in multiset(rest);
      if rest[k] != x {
        assert rest[k] in multiset(ys);
        var j :| 0 <= j < |ys| && ys[j] == rest[k];
      }
    }
    forall i, j | 0 <= i < j < |r| ensures key(r[i]) <= key(r[j]) {
      if i > 0 {
        assert r[i] == rest[i - 1];
      }
      assert r[j] == rest[j - 1];
    }
  }

  lemma SortedFront<T>(x: T, ys: seq<T>, key: T -> int)
    requires SortedBy(ys, key) && |ys| > 0 && key(x) <= key(ys[0])
    ensures SortedBy([x] + ys, key)
  {
    var r := [x] + ys;
    forall i, j | 0 <= i < j < |r| ensures key(r[i]) <= key(r[j]) {
      assert r[j] == ys[j - 1];
      if i > 0 {
        assert r[i] == ys[i - 1];
      } else {
        assert key(ys[0]) <= key(ys[j - 1]);
      }
    }
  }

  /** Places `x` before the first element whose key is not smaller. */
  function Insert<T>(x: T, ys: seq<T>, key: T -> int): (r: seq<T>)
    ensures multiset(r) == multiset(ys) + multiset{x}
    ensures SortedBy(ys, key) ==> SortedBy(r, key)
    ensures |r| == |ys| + 1
  {
    if |ys| == 0 then [x]
    else if key(x) <= key(ys[0]) then
      assert SortedBy(ys, key) ==> SortedBy([x] + ys, key) by {
        if SortedBy(ys, key) {
          SortedFront(x, ys, key);
        }
      }
      [x] + ys
    else
      var rest := Insert(x, ys[1..], key);
      InsertAfterHead(x, ys, rest, key);
      [ys[0]] + rest
  }

  /** What `Insert` keeps when `x` goes after the head of `ys`. */
  lemma InsertAfterHead<T>(x: T, ys: seq<T>, rest: seq<T>, key: T -> int)
    requires |ys| > 0 && key(ys[0]) < key(x)
    requires multiset(rest) == multiset(ys[1..]) + multiset{x}
    requires SortedBy(ys[1..], key) ==> SortedBy(rest, key)
    ensures multiset([ys[0]] + rest) == multiset(ys) + multiset{x}
    ensures SortedBy(ys, key) ==> SortedBy([ys[0]] + rest, key)
  {
    assert ys == [ys[0]] + ys[1..];
    assert multiset(ys) == multiset{ys[0]} + multiset(ys[1..]);
    if SortedBy(ys, key) {
      assert forall k :: 0 <= k < |ys[1..]| ==> ys[1..][k] == ys[k + 1];
      SortedCons(ys[0], x, ys[1..], rest, key);
    }
  }

  /** A stable sort by `key`, as `Array.prototype.sort` has been required to be since
      ECMAScript 2019. */
  function InsertionSort<T>(xs: seq<T>, key: T -> int): (r: seq<T>)
    ensures SortedBy(r, key)
    ensures multiset(r) == multiset(xs)
  {
    if |xs| == 0 then []
    else
      assert xs == [xs[0]] + xs[1..];
      Insert(xs[0], InsertionSort(xs[1..], key), key)
  }

  /** The elements whose key is `v`, in their order in `xs`. */
  function WithKey<T>(xs: seq<T>, key: T -> int, v: int): seq<T> {
    if |xs| == 0 then []
    else (if key(xs[0]) == v then [xs[0]] else []) + WithKey(xs[1..], key, v)
  }

  lemma WithKeyCons<T>(a: T, s: seq<T>, key: T -> int, v: int)
    ensures WithKey([a] + s, key, v) == (if key(a) == v then [a] else []) + WithKey(s, key, v)
  {
    assert ([a] + s)[1..] == s;
  }

  lemma InsertPastHead<T>(x: T, ys: seq<T>, key: T -> int)
    requires |ys| > 0 && key(x) > key(ys[0])
    ensures Insert(x, ys, key) == [ys[0]] + Insert(x, ys[1..], key)
  {
  }

  /** Moving a group of elements with key `v` past one element changes nothing in the
      group. */
  lemma SwapGroups<T>(h: seq<T>, xp: seq<T>, rest: seq<T>)
    requires |h| == 0 || |xp| == 0
    ensures h + (xp + rest) == xp + (h + rest)
  {
  }

  lemma {:induction false} InsertStable<T>(x: T, ys: seq<T>, key: T -> int, v: int)
    ensures WithKey(Insert(x, ys, key), key, v)
      == (if key(x) == v then [x] else []) + WithKey(ys, key, v)
    decreases |ys|
  {
    if |ys| == 0 {
      WithKeyCons(x, [], key, v);
      assert [x] + [] == [x];
    } else if key(x) <= key(ys[0]) {
      WithKeyCons(x, ys, key, v);
    } else {
      var rest := Insert(x, ys[1..], key);
      InsertPastHead(x, ys, key);
      var h := if key(ys[0]) == v then [ys[0]] else [];
      var xp := if key(x) == v then [x] else [];
      InsertStable(x, ys[1..], key, v);
      WithKeyCons(ys[0], rest, key, v);
      assert ys == [ys[0]] + ys[1..];
      WithKeyCons(ys[0], ys[1..], key, v);
      SwapGroups(h, xp, WithKey(ys[1..], key, v));
    }
  }

  /** Elements with equal keys leave the sort in the order they entered it. */
  lemma {:induction false} InsertionSortStable<T>(xs: seq<T>, key: T -> int, v: int)
    ensures WithKey(InsertionSort(xs, key), key, v) == WithKey(xs, key, v)
    decreases |xs|
  {
    if |xs| > 0 {
      InsertionSortStable(xs[1..], key, v);
      InsertStable(xs[0], InsertionSort(xs[1..], key), key, v);
    }
  }

  /** Sorted by start time: the comparator never reports a slot as later than one that
      follows it. */
  ghost predicate Sorted(xs: seq<Slot>) {
    forall i, j :: 0 <= i < j < |xs| ==> CompareSlots(xs[i], xs[j]) <= 0
  }

  lemma SortedByStart(xs: seq<Slot>)
    requires SortedBy(xs, StartMinutes)
    ensures Sorted(xs)
  {
    forall i, j | 0 <= i < j < |xs| ensures CompareSlots(xs[i], xs[j]) <= 0 {
      assert StartMinutes(xs[i]) <= StartMinutes(xs[j]);
    }
  }

  predicate Readable(s: Slot) {
    ParseStartTime(s.startTime).Success?
  }

  /** `slots.sort(comparator)`. With fewer than two slots the comparator is never called.
      Otherwise every slot is compared at least once: a start time without a space makes
      the comparator throw, and one with a non-numeric hour or minute makes it return
      NaN, which the sort reads as "equal". Mixed with readable slots that makes the
      comparator inconsistent and the order engine-defined; when no slot is readable the
      stable sort keeps the input order. Both cases are reported as a failure here. */
  function SortSlots(slots: seq<Slot>): (r: Result<seq<Slot>, ParseError>)
    ensures |slots| <= 1 ==> r == Success(slots)
    ensures r.Success? ==> Sorted(r.value) && multiset(r.value) == multiset(slots)
    ensures r.Success? ==> forall v :: WithKey(r.value, StartMinutes, v) == WithKey(slots, StartMinutes, v)
    ensures r == Failure(MissingPeriod) <==>
      |slots| >= 2 && exists k :: 0 <= k < |slots| && ' ' !in slots[k].startTime
    ensures r.Failure? <==> |slots| >= 2 && exists k :: 0 <= k < |slots| && !Readable(slots[k])
  {
    if |slots| <= 1 then Success(slots)
    else if exists k :: 0 <= k < |slots| && ParseStartTime(slots[k].startTime) == Failure(MissingPeriod) then
      Failure(MissingPeriod)
    else if exists k :: 0 <= k < |slots| && !Readable(slots[k]) then
      Failure(NotANumber)
    else
      var sorted := InsertionSort(slots, StartMinutes);
      SortedByStart(sorted);
      assert forall v :: WithKey(sorted, StartMinutes, v) == WithKey(slots, StartMinutes, v) by {
        forall v ensures WithKey(sorted, StartMinutes, v) == WithKey(slots, StartMinutes, v) {
          InsertionSortStable(slots, StartMinutes, v);
        }
      }
      Success(sorted)
  }
}

=== FILE: validation.dfy ===
/** The client-side field rules of the booking and address forms (pages/book.jsx,
    components/Address.jsx, pages/admin/location/create.jsx), as react-hook-form applies
    them: the `required` rule first, then `pattern` or `validate` on a non-empty value. */
module Validation {
  import opened Wrappers
  import opened JsText

  /** The `required` rule: an empty text box yields the field's message. */
  function Required(value: string, message: string): (err: Option<string>)
    ensures err.Some? <==> |value| == 0
    ensures err.Some? ==> err.value == message
  {
    if value == "" then Some(message) else None
  }

  // ---------------------------------------------------------------------------
  // The email pattern /^[^\s@]+@[^\s@]+\.[^\s@]+$/

  /** One `[^\s@]+` run: at least one character, none of them white space or '@'. */
  predicate Plain(t: string) {
    |t| > 0 && forall k :: 0 <= k < |t| ==> !IsWhitespace(t[k]) && t[k] != '@'
  }

  /** The pattern matches with its '@' at `i` and its escaped '.' at `j`. */
  ghost predicate MatchesAt(s: string, i: int, j: int) {
    && 0 <= i < j < |s|
    && s[i] == '@' && s[j] == '.'
    && Plain(s[..i]) && Plain(s[i + 1..j]) && Plain(s[j + 1..])
  }

  /** What the regular expression accepts: some choice of the '@' and the '.' splits the
      whole text into three runs of the `[^\s@]+` class. */
  ghost predicate PatternMatches(s: string) {
    exists i, j :: MatchesAt(s, i, j)
  }

  function CountOf(s: string, c: char): nat {
    if |s| == 0 then 0 else (if s[0] == c then 1 else 0) + CountOf(s[1..], c)
  }

  lemma {:induction false} CountOfConcat(a: string, b: string, c: char)
    ensures CountOf(a + b, c) == CountOf(a, c) + CountOf(b, c)
    decreases |a|
  {
    if |a| > 0 {
      assert (a + b)[0] == a[0];
      assert (a + b)[1..] == a[1..] + b;
      CountOfConcat(a[1..], b, c);
    } else {
      assert a + b == b;
    }
  }

  lemma {:induction false} CountOfZero(s: string, c: char)
    ensures CountOf(s, c) == 0 <==> c !in s
    decreases |s|
  {
    if |s| > 0 {
      CountOfZero(s[1..], c);
      assert s == [s[0]] + s[1..];
    }
  }

  /** The domain part has a '.' that is neither its first nor its last character. */
  predicate InnerDot(d: string) {
    exists k :: 0 < k < |d| - 1 && d[k] == '.'
  }

  /** The email rule as the form states it: no white space, exactly one '@' with text
      before it, and a '.' inside the text after it. */
  predicate EmailAccepted(s: string) {
    && NoWhitespace(s)
    && CountOf(s, '@') == 1
    && exists i :: 0 < i < |s| && s[i] == '@' && InnerDot(s[i + 1..])
  }

  lemma SplitAt(s: string, i: int)
    requires 0 <= i < |s|
    ensures CountOf(s, '@') == CountOf(s[..i], '@') + CountOf([s[i]], '@') + CountOf(s[i + 1..], '@')
  {
    assert s == s[..i] + ([s[i]] + s[i + 1..]);
    CountOfConcat(s[..i], [s[i]] + s[i + 1..], '@');
    CountOfConcat([s[i]], s[i + 1..], '@');
  }

  lemma PatternImpliesAccepted(s: string, i: int, j: int)
    requires MatchesAt(s, i, j)
    ensures EmailAccepted(s)
  {
    forall k | 0 <= k < |s| ensures !IsWhitespace(s[k]) {
      if k < i { assert s[k] == s[..i][k]; }
      else if i < k < j { assert s[k] == s[i + 1..j][k - i - 1]; }
      else if j < k { assert s[k] == s[j + 1..][k - j - 1]; }
    }
    var d := s[i + 1..];
    assert d == s[i + 1..j] + [s[j]] + s[j + 1..];
    CountOfConcat(s[i + 1..j] + [s[j]], s[j + 1..], '@');
    CountOfConcat(s[i + 1..j], [s[j]], '@');
    CountOfZero(s[..i], '@');
    CountOfZero(s[i + 1..j], '@');
    CountOfZero(s[j + 1..], '@');
    SplitAt(s, i);
    assert d[j - i - 1] == '.';
  }

  lemma PlainPiece(s: string, lo: int, hi: int)
    requires 0 <= lo < hi <= |s|
    requires NoWhitespace(s) && '@' !in s[lo..hi]
    ensures Plain(s[lo..hi])
  {
    forall k | 0 <= k < hi - lo ensures !IsWhitespace(s[lo..hi][k]) && s[lo..hi][k] != '@' {
      assert s[lo..hi][k] == s[lo + k];
    }
  }

  /** Text after the '@' that holds no '@' has none on either side of the '.'. */
  lemma DomainPieces(s: string, i: int, j: int)
    requires 0 <= i < j < |s| && '@' !in s[i + 1..]
    ensures '@' !in s[i + 1..j] && '@' !in s[j + 1..]
  {
    var d := s[i + 1..];
    forall x | x in s[i + 1..j] ensures x in d {
      var m :| 0 <= m < j - i - 1 && s[i + 1..j][m] == x;
      assert d[m] == x;
    }
    forall x | x in s[j + 1..] ensures x in d {
      var m :| 0 <= m < |s| - j - 1 && s[j + 1..][m] == x;
      assert d[m + j - i] == x;
    }
  }

  lemma AcceptedImpliesPattern(s: string) returns (i: int, j: int)
    requires EmailAccepted(s)
    ensures MatchesAt(s, i, j)
  {
    i :| 0 < i < |s| && s[i] == '@' && InnerDot(s[i + 1..]);
    var d := s[i + 1..];
    var k :| 0 < k < |d| - 1 && d[k] == '.';
    j := i + 1 + k;
    SplitAt(s, i);
    CountOfZero(s[..i], '@');
    CountOfZero(d, '@');
    DomainPieces(s, i, j);
    PlainPiece(s, 0, i);
    PlainPiece(s, i + 1, j);
    PlainPiece(s, j + 1, |s|);
  }

  /** The form's description of the email rule is exactly what the regular expression
      accepts. */
  lemma EmailAcceptedIffPattern(s: string)
    ensures EmailAccepted(s) <==> PatternMatches(s)
  {
    if EmailAccepted(s) {
      var i, j := AcceptedImpliesPattern(s);
    }
    if PatternMatches(s) {
      var i, j :| MatchesAt(s, i, j);
      PatternImpliesAccepted(s, i, j);
    }
  }

  /** The email field's message: required first, then the pattern. */
  function EmailError(value: string): (err: Option<string>)
    ensures err == None <==> PatternMatches(value)
    ensures |value| == 0 ==> err == Some("Email is required")
    ensures |value| > 0 && !PatternMatches(value) ==> err == Some("Please enter correct email id")
  {
    EmailAcceptedIffPattern(value);
    if value == "" then Some("Email is required")
    else if !EmailAccepted(value) then Some("Please enter correct email id")
    else None
  }

  // ---------------------------------------------------------------------------
  // Age

  /** The age field's message: required first, then `value > 0`, where JavaScript
      compares the text as a number and NaN compares false. */
  function AgeError(value: string): (err: Option<string>)
    ensures err == None <==> ToNumber(value).Num? && ToNumber(value).value > 0
    ensures |value| == 0 ==> err == Some("Age is required")
    ensures |value| > 0 && err.Some? ==> err == Some("Enter proper age")
  {
    if value == "" then Some("Age is required")
    else
      var n := ToNumber(value);
      if n.Num? && n.value > 0 then None else Some("Enter proper age")
  }

  /** An age typed as a whole number is accepted exactly when it is positive. */
  lemma AgeOfWholeNumber(n: int)
    ensures AgeError(IntToDecimal(n)) == None <==> n > 0
    ensures n <= 0 ==> AgeError(IntToDecimal(n)) == Some("Enter proper age")
  {
    NumberOfDecimal(n);
  }

  // ---------------------------------------------------------------------------
  // Default ids of the booking request

  /** An id sent with the booking: the select's text value, or the numeric id of a
      fetched record. */
  datatype IdValue = FormValue(text: string) | FetchedId(id: int)

  /** `serviceTypes[0].id` on an empty list throws; the request is then never sent. */
  datatype BookingError = NoServiceTypes | NoLocations

  /** `chosen || fetched[0].id`: a chosen id is sent as is; an unset one falls back to
      the first fetched record, which must exist. */
  function ResolveId(chosen: string, fetched: seq<int>): (r: Option<IdValue>)
    ensures r.None? <==> |chosen| == 0 && |fetched| == 0
    ensures r.Some? && r.value.FetchedId? ==> |chosen| == 0 && r.value.id == fetched[0]
    ensures r.Some? && r.value.FormValue? ==> r.value.text == chosen && |chosen| > 0
  {
    if chosen != "" then Some(FormValue(chosen))
    else if |fetched| > 0 then Some(FetchedId(fetched[0]))
    else None
  }

  /** The `serviceTypeId` and `locationId` of the booking request, evaluated in that
      order. */
  function BookingIds(serviceTypeId: string, locationId: string, serviceTypes: seq<int>, locations: seq<int>)
    : (r: Result<(IdValue, IdValue), BookingError>)
    ensures r.Success? <==>
      (|serviceTypeId| > 0 || |serviceTypes| > 0) && (|locationId| > 0 || |locations| > 0)
    ensures r == Failure(NoServiceTypes) <==> |serviceTypeId| == 0 && |serviceTypes| == 0
    ensures r.Success? && |serviceTypeId| > 0 ==> r.value.0 == FormValue(serviceTypeId)
    ensures r.Success? && |locationId| > 0 ==> r.value.1 == FormValue(locationId)
    ensures r.Success? && |serviceTypeId| == 0 ==> r.value.0 == FetchedId(serviceTypes[0])
    ensures r.Success? && |locationId| == 0 ==> r.value.1 == FetchedId(locations[0])
  {
    match ResolveId(serviceTypeId, serviceTypes)
    case None => Failure(NoServiceTypes)
    case Some(service) =>
      match ResolveId(locationId, locations)
      case None => Failure(NoLocations)
      case Some(location) => Success((service, location))
  }
}

=== FILE: wrappers.dfy ===
/** Failure-carrying values shared by the whole model: a missing value (JavaScript's
    `undefined`/`null`) and the outcome of a step that can throw or be rejected. */
module Wrappers {

  datatype Option<+T> = None | Some(value: T) {

    /** The value, or `default` when there is none (JavaScript's `x || default` on an object). */
    function GetOr(default: T): T {
      match this
      case Some(v) => v
      case None => default
    }
  }

  datatype Result<+T, +E> = Success(value: T) | Failure(error: E)
}
